=== FILE: README.md ===
# Sale entry of the PlipShop point-of-sale frontend, in Dafny

This project models the logic behind the sale-entry screens of a small
point-of-sale web frontend. Each piece is a pure function over immutable
datatypes, and the properties the screens rely on are proved about it.

- **Money calculator.** Cart subtotal, tax at a rate (default 0), total, and the
  recomputed line subtotal (`calculations.dfy`).
- **Cart.** Adding a product merges it into the line with the same id, or
  appends it. Lines are replaced and removed by id (`cart.dfy`). The product
  table's quantity and price edits are guarded (`product_table.dfy`).
- **Payment split tracker.** Three fixed methods. Toggling a method off zeroes
  its amount. The first method switched on takes the whole total. The
  tracker emits the selected methods with their amounts, and derives
  `totalPaid`, `remaining` and `change` (`payments.dfy`).
- **New-sale session.** Derived totals, the two guards in front of sale
  registration, the registration payload, reset, draft save and draft load
  (`sale.dfy`). `screen.dfy` combines the session with the payment tracker.
- **Draft store.** At most three drafts, newest first, with one entry per id
  (`draft.dfy`).
- **Mappers.** A fetched sale becomes cart lines, payments and a customer
  (`mappers.dfy`). A product search result becomes a product (`types.dfy`).
- **Inventory page.** Paging by 100 rows, the stock badge and the summary
  counters, replacing and deleting rows by id, and pending inline edits
  (`inventory.dfy`). The edit dialog's validation and save are in
  `edit_inventory.dfy`.
- **Customers.** The add-customer dialog's normalisation, its registration
  payload and its submit outcome. The sale screen's document search
  (`customers.dfy`).
- **Variants dialog.** The map from variant kind to entered values, and the
  kinds still offered (`variants.dfy`).
- **Add-product dialog.** Quantity and price clamps, the subtotal preview and
  submit (`quantity_modal.dfy`).

Shared pieces:

- `keyed.dfy` holds the list operations keyed by a named key function: find
  the first index, remove by key, replace by key, sum, count.
- `text.dfy` holds the JavaScript string operations the screens use: `trim`,
  `replace(/\D/g, '')`, `toLowerCase`, `join`, `String(n)`, `Number(s)`.
- `wrappers.dfy` holds `Option` and `Result`.

Modelling conventions:

- Money is `real`, so it is exact. Quantities and ids are `int`.
- JavaScript's falsy values are modelled explicitly. A `NaN` from `parseInt`,
  `parseFloat` or `Number` is `None`. `x || d` is written out. A returned id
  of 0 counts as a failure, as any falsy value does.
- Calls to the backend become parameters: the sale id returned by
  registration, the customer id returned by registration, the fetched sale.
  Clock values and generated ids become parameters too (`now`, the draft id).
  Browser storage becomes an `Option<seq<SaleDraft>>`, where `None` means
  nothing is stored.

## Model

| member | source | states |
|---|---|---|
| Keyed.FindIndex | src/components/sales/NewSaleModal.tsx:70 | `findIndex`: the result is -1 exactly when no element has the key. Otherwise it is the first index whose element has the key. |
| Keyed.RemoveKey | src/utils/draft.ts:18 | `filter(d => d.id !== id)`: an element is kept exactly when it was present and has a different key. |
| Keyed.RemoveKeyAppend | src/utils/draft.ts:18 | Filtering by key distributes over concatenation, so the kept elements stay in order. |
| Keyed.RemoveKeyPresentLength | src/components/Inventory/InventoryPage.tsx:120 | With unique keys, removing a present key shortens the list by exactly one. |
| Keyed.RemoveAbsentKey | src/utils/draft.ts:18 | Filtering out a key that no element has returns the list unchanged. |
| Keyed.RemoveKeyGone | src/components/sales/NewSaleModal.tsx:336 | After filtering out a key, no element has it. |
| Keyed.RemoveKeyUnique | src/components/sales/NewSaleModal.tsx:336 | Filtering out a key keeps keys unique. |
| Keyed.ReplaceKey | src/components/sales/NewSaleModal.tsx:332 | `map(i => i.id === x.id ? x : i)`: the length is kept. Elements with the key become `x`; the others are unchanged. |
| Keyed.ReplaceKeyUnique | src/components/Inventory/InventoryPage.tsx:111-113 | Replacement by key keeps keys unique. |
| Keyed.ReplaceKeyKeepsKeys | src/components/sales/NewSaleModal.tsx:332 | Replacement by key keeps every position's key. |
| Keyed.ReplaceAbsentKey | src/components/sales/NewSaleModal.tsx:332 | Replacing with a key that no element has returns the list unchanged. |
| Keyed.SumAppend | src/utils/calculations.ts:3-5 | The `reduce` sum of a concatenation is the sum of the two parts. |
| Keyed.SumUpdate | src/components/sales/NewSaleModal.tsx:73-78 | Replacing one element changes the sum by the difference of the two elements. |
| Keyed.CountWhere | src/components/Inventory/InventoryPage.tsx:248 | `filter(p).length` never exceeds the length. |
| Keyed.CountExclusiveBound | src/components/Inventory/InventoryPage.tsx:248-274 | When no element satisfies two of three predicates, their counts add up to at most the length. |
| Keyed.CountPartition | src/components/Inventory/InventoryPage.tsx:248-274 | When three predicates put each element in exactly one class, their `filter(...).length` counts add up to the length. |
| Keyed.CountMissesOne | src/components/Inventory/InventoryPage.tsx:248-274 | When the predicates are exclusive and one element is in no class, the counts fall short of the length. |
| Text.Trim | src/components/sales/CustomerSearch.tsx:17 | `trim()`: the result is a slice of the input with only whitespace before and after it. It is empty exactly when the input is blank. Otherwise it neither starts nor ends with whitespace. |
| Text.TrimIdempotent | src/components/customers/AddCustomerModal.tsx:54 | Trimming twice is trimming once. |
| Text.TrimOfTrimmed | src/components/customers/AddCustomerModal.tsx:54 | A non-empty string with no whitespace at either end is its own trim. |
| Text.DigitsOnly | src/components/customers/AddCustomerModal.tsx:53 | `replace(/\D/g, '')`: the result is made of digits and is no longer than the input. |
| Text.DigitsOnlyAppend | src/components/customers/AddCustomerModal.tsx:53 | Keeping digits distributes over concatenation, so the digits keep their order. |
| Text.DigitsOnlyChar | src/components/customers/AddCustomerModal.tsx:53 | A single character is kept exactly when it is a digit. |
| Text.DigitsOnlyIdempotent | src/components/customers/AddCustomerModal.tsx:53 | Cleaning a cleaned document changes nothing. |
| Text.DigitsOnlyOfDigits | src/components/customers/AddCustomerModal.tsx:53 | A string of digits is left as it is. |
| Text.LowerChar | src/components/customers/AddCustomerModal.tsx:54 | Lower-casing a character never yields an upper-case letter and keeps whitespace as whitespace. |
| Text.ToLower | src/components/customers/AddCustomerModal.tsx:54 | `toLowerCase()` keeps the length and lower-cases each character in place. |
| Text.ToLowerKeepsBlank | src/components/customers/AddCustomerModal.tsx:54 | Lower-casing neither creates nor removes a blank string. |
| Text.ToLowerIdempotent | src/components/customers/AddCustomerModal.tsx:54 | Lower-casing twice is lower-casing once. |
| Text.Join | src/components/Inventory/InventoryPage.tsx:101 | `join`: an empty list gives the empty string, and one part gives itself. |
| Text.JoinAppend | src/components/Inventory/InventoryPage.tsx:101 | Joining two non-empty lists puts exactly one separator between their joins. |
| Text.JoinLength | src/components/Inventory/InventoryPage.tsx:101 | A join is as long as its parts together plus one separator between each pair. |
| Text.NatToString | src/utils/types.ts:60 | `String(n)` of a natural number is a non-empty string of digits, with no leading zero unless n is 0. |
| Text.IntToString | src/utils/mappers.ts:30 | `String(i)` starts with a minus sign exactly when i is negative. |
| Text.NumberOf | src/components/sales/NewSaleModal.tsx:99 | `Number(s)` on plain integer text: a digit string gives a non-negative value and the empty string gives 0. A minus sign followed by digits gives a value of at most 0. The result is a number exactly for these two forms; every other text is `NaN` (`None`) in the model. |
| Text.NumberOfNatToString | src/components/sales/NewSaleModal.tsx:99 | `Number(String(n))` gives back n for every natural n. |
| Text.NumberOfIntToString | src/components/sales/NewSaleModal.tsx:99 | `Number(String(i))` gives back i for every integer i, negative ones included. |
| Types.PaymentMethodsExhaustive | src/utils/types.ts:20 | Exactly three payment methods exist, each listed once. |
| Types.EnumNamesRoundTrip | src/utils/types.ts:20-29 | Each wire name of a method, origin or consumer type reads back as the value it names. Only wire names are read. |
| Types.EnumNamesDistinct | src/utils/types.ts:27-29 | The four origins and the four consumer types have pairwise distinct wire names. |
| Types.MapBusquedaAProduct | src/utils/types.ts:59-66 | sku, barcode and editable are copied. `nombre` becomes name and `precio` becomes price. A text id is copied. A numeric id becomes text that `Number` reads back as the same id. |
| Calculations.CalculateSubtotal | src/utils/calculations.ts:3-5 | The empty cart has subtotal 0. A single line contributes its stored `subtotal` field. |
| Calculations.SubtotalAppend | src/utils/calculations.ts:3-5 | The subtotal of a concatenation is the sum of the parts' subtotals. |
| Calculations.SubtotalOfConsistentCart | src/utils/calculations.ts:3-5 | When every line has subtotal = price × quantity, the cart subtotal is Σ price × quantity. |
| Calculations.CalculateTax | src/utils/calculations.ts:7-9 | The default rate gives tax 0. Non-negative subtotal and rate give non-negative tax. |
| Calculations.CalculateTotal | src/utils/calculations.ts:11-13 | The total plus the discount minus the tax is the subtotal. With the defaults, the total is the subtotal. |
| Calculations.TotalAtRate | src/utils/calculations.ts:7-13 | Without a discount, the total at a rate is subtotal × (1 + rate). |
| Calculations.TwentyOnePercentExample | src/utils/calculations.ts:3-13 | Two units at 100 at a 21% rate give subtotal 200, tax 42 and total 242. |
| Calculations.UpdateCartItemSubtotal | src/utils/calculations.ts:22-29 | The result has subtotal = price × quantity. Every other field is unchanged. |
| Calculations.UpdateSubtotalFixesConsistent | src/utils/calculations.ts:22-29 | Recomputing is idempotent. It changes a line exactly when the line was inconsistent. |
| DraftStore.GetDrafts | src/utils/draft.ts:6-9 | Nothing stored reads as the empty list. Otherwise the stored list is returned. |
| DraftStore.SaveDraft | src/utils/draft.ts:11-15 | The new draft is first. No later entry has its id. The rest are the other drafts in their old order, cut to three in total. |
| DraftStore.SaveDraftIdempotent | src/utils/draft.ts:13 | Saving the same draft twice leaves the same list as saving it once. |
| DraftStore.SaveDraftKeepsIdsUnique | src/utils/draft.ts:13 | Saving keeps draft ids unique. |
| DraftStore.SaveExistingKeepsLength | src/utils/draft.ts:13 | Saving over an existing id keeps the list's length and moves that draft to the front. |
| DraftStore.FourDraftsKeepThreeMostRecent | src/utils/draft.ts:13 | Four saves with distinct ids leave the three most recent, newest first. |
| DraftStore.DeleteDraft | src/utils/draft.ts:17-20 | No entry has the id afterwards. Exactly the stored drafts with other ids remain. |
| DraftStore.DeleteAbsentIsNoOp | src/utils/draft.ts:18 | Deleting an id that is not stored changes nothing. |
| DraftStore.DeleteKeepsOrder | src/utils/draft.ts:18 | Deleting distributes over concatenation, so the remaining drafts keep their order. |
| DraftStore.DeleteAfterSave | src/utils/draft.ts:11-20 | Deleting a draft just saved leaves exactly the older drafts that survived the save. |
| Payments.WithAmount | src/components/sales/PaymentMethods.tsx:57 | `{ ...payments, [method]: amount }` sets one method's amount and keeps the others. |
| Payments.Toggle | src/components/sales/PaymentMethods.tsx:43-54 | Toggling off removes the method and zeroes its amount. Toggling on appends it. The first method on takes the total; a later one leaves every amount unchanged. Other methods are unaffected. |
| Payments.AmountChange | src/components/sales/PaymentMethods.tsx:56-59 | Only the given method's amount changes. The selection is kept. |
| Payments.EmitFor | src/components/sales/PaymentMethods.tsx:35-40 | The emitted list has one entry per selected method, in selection order, each with that method's amount. |
| Payments.Emitted | src/components/sales/PaymentMethods.tsx:35-40 | The list handed to the session pairs each selected method with its amount, in selection order. |
| Payments.InitialIsValid | src/components/sales/PaymentMethods.tsx:14-19 | The tracker starts valid, with nothing emitted and nothing paid. |
| Payments.ToggleKeepsValid | src/components/sales/PaymentMethods.tsx:43-54 | Toggling keeps the selection duplicate-free and keeps every unselected amount at 0. |
| Payments.AmountChangeKeepsValid | src/components/sales/PaymentMethods.tsx:56-59 | Typing an amount for a selected method keeps the tracker valid. |
| Payments.ToggleOnOffRestores | src/components/sales/PaymentMethods.tsx:43-54 | Switching an unselected method on and then off restores the tracker. |
| Payments.EmittedSumIsShares | src/components/sales/PaymentMethods.tsx:35-40 | The sum of the emitted amounts is the sum, over the methods, of the amounts of the selected ones. |
| Payments.TotalPaid | src/components/sales/PaymentMethods.tsx:62 | `totalPaid` adds the amounts of all three methods, selected or not. A valid tracker with nothing selected has paid 0. |
| Payments.Remaining | src/components/sales/PaymentMethods.tsx:63 | What is still owed: remaining plus paid is the total. It is negative exactly on overpayment. |
| Payments.Change | src/components/sales/PaymentMethods.tsx:64 | Change is never negative and at least the overpayment. It is positive exactly when more than the total is paid. |
| Payments.TotalPaidIsEmittedSum | src/components/sales/PaymentMethods.tsx:62 | For a valid tracker, `totalPaid` over all three amounts equals the sum of the emitted amounts. |
| Payments.RemainingAndChange | src/components/sales/PaymentMethods.tsx:62-64 | Remaining and change are never both positive. Change is positive exactly when remaining is negative, and it then equals −remaining. Remaining is 0 exactly when the total is paid. |
| Payments.CashExamples | src/components/sales/PaymentMethods.tsx:43-103 | Cash switched on against 242 pays exactly 242. Switching the card on adds it at 0; amounts are typed only once two methods are selected. 142 in cash and 100 by card pay exactly; 158 by card leaves 58 of change. |
| Cart.AddToCart | src/components/sales/NewSaleModal.tsx:69-83 | A line with the same id gets the summed quantity and subtotal = its own price × new quantity. Other lines and the length are unchanged. A new id is appended. |
| Cart.AddKeepsIdsUnique | src/components/sales/NewSaleModal.tsx:69-83 | Adding keeps line ids unique. |
| Cart.AddLineCount | src/components/sales/NewSaleModal.tsx:69-83 | A known id keeps the line count. A new id adds one line. |
| Cart.AddKeepsConsistent | src/components/sales/NewSaleModal.tsx:73-78 | Adding a consistent item to a consistent cart keeps every line's subtotal = price × quantity. |
| Cart.AddRaisesSubtotal | src/components/sales/NewSaleModal.tsx:69-83 | A merge raises the cart subtotal by the existing price × added quantity. An append raises it by the item's subtotal. |
| Cart.MergedRaise | src/components/sales/NewSaleModal.tsx:76-77 | A merged consistent line's subtotal grows by price × added quantity. |
| Cart.SubtotalAfterMerge | src/components/sales/NewSaleModal.tsx:73-78 | Merging extra units into a consistent line raises the cart subtotal by price × extra. |
| Cart.UpdateItem | src/components/sales/NewSaleModal.tsx:331-334 | Lines with the item's id are replaced by it. The others, the ids and the length are unchanged. |
| Cart.UpdateKeepsInvariants | src/components/sales/NewSaleModal.tsx:331-334 | Updating keeps ids unique, and keeps lines consistent when the item is. |
| Cart.RemoveItem | src/components/sales/NewSaleModal.tsx:335-337 | No line has the id afterwards. Exactly the lines with other ids remain. |
| Cart.RemoveUndoesNewAdd | src/components/sales/NewSaleModal.tsx:69-83 | Removing a just-appended new id gives back the cart. |
| Cart.RemoveKeepsInvariants | src/components/sales/NewSaleModal.tsx:335-337 | Removing keeps ids unique and lines consistent. |
| ProductTable.HandleQuantityChange | src/components/sales/ProductTable.tsx:19-28 | A quantity below 1 emits nothing. Otherwise the line gets the new quantity, keeps its price and is consistent. Nothing else changes. |
| ProductTable.HandlePriceChange | src/components/sales/ProductTable.tsx:30-39 | A negative price emits nothing. Otherwise the line gets the new price, keeps its quantity and is consistent. Nothing else changes. |
| ProductTable.TypedQuantity | src/components/sales/ProductTable.tsx:78 | `parseInt(text) \|\| 1`: `NaN` and 0 become 1. Any other parsed value is kept. |
| ProductTable.TypedPrice | src/components/sales/ProductTable.tsx:98 | `parseFloat(text) \|\| 0`: `NaN` becomes 0. |
| ProductTable.DecrementPressed | src/components/sales/ProductTable.tsx:71 | "−" is refused exactly on a line with at most one unit. Otherwise the line loses one unit, keeps its price and is consistent. |
| ProductTable.IncrementPressed | src/components/sales/ProductTable.tsx:86 | "+" is refused only on a line below zero units. Otherwise the line gains one unit, keeps its price and is consistent. |
| ProductTable.PriceInputShown | src/components/sales/ProductTable.tsx:93-106 | The price cell is an input exactly on editable lines; other lines show the price as text. |
| ProductTable.StepButtons | src/components/sales/ProductTable.tsx:71-86 | "−" on quantity 1 emits nothing. Otherwise it lowers the quantity by one. "+" raises it by one. |
| ProductTable.TypedQuantityEdits | src/components/sales/ProductTable.tsx:78 | A typed quantity is refused only when it parses negative. Unparsable text sets quantity 1. |
| ProductTable.ApplyQuantityChange | src/components/sales/ProductTable.tsx:19-28 | A quantity below 1 leaves the cart as it is. An accepted quantity reaches every line with the item's id, which keeps the item's price and is consistent; every other line is left alone. The cart length is kept. |
| ProductTable.ApplyPriceChange | src/components/sales/ProductTable.tsx:93-102 | A price reaches only an editable line, whose price input is the only one rendered. A negative price or a non-editable line leaves the cart as it is. Otherwise every line with the item's id gets the new price, keeps its quantity and is consistent; every other line is left alone. The cart length is kept. |
| ProductTable.FixedPriceLinesKept | src/components/sales/ProductTable.tsx:93-106 | A price edit on any line of a cart with unique ids leaves every non-editable line unchanged. |
| ProductTable.EditsKeepCartInvariants | src/components/sales/ProductTable.tsx:19-39 | Quantity and price edits keep ids unique and lines consistent. |
| NewSale.DeriveTotals | src/components/sales/NewSaleModal.tsx:42-50 | The subtotal is the cart subtotal, the tax is 0 and the total is subtotal − discount. |
| NewSale.TotalOfConsistentCart | src/components/sales/NewSaleModal.tsx:42-50 | With consistent lines and no discount, the total is Σ price × quantity. |
| NewSale.SaleParams | src/components/sales/NewSaleModal.tsx:98-114 | With no customer the client is 1; otherwise `Number(customer.id)`. Detail lines mirror the cart in order (sku, quantity, price). Payments mirror the session's payments. Origin, consumer, tax type and observations are passed through. |
| NewSale.ValidateSale | src/components/sales/NewSaleModal.tsx:85-95 | The sale passes exactly when the cart is non-empty and Σ payments ≥ total. An empty cart is refused first, then underpayment. |
| NewSale.HandleAddToCart | src/components/sales/NewSaleModal.tsx:69-83 | A product from the dialog is merged into or appended to the cart, as `Cart.AddToCart` states. Nothing else in the session changes. |
| NewSale.HandleUpdateItem | src/components/sales/NewSaleModal.tsx:331-334 | An edited line replaces the line with its id, as `Cart.UpdateItem` states. Nothing else in the session changes. |
| NewSale.HandleRemoveItem | src/components/sales/NewSaleModal.tsx:335-337 | The lines with the given id leave the cart, as `Cart.RemoveItem` states. Nothing else in the session changes. |
| NewSale.HandleSaveSale | src/components/sales/NewSaleModal.tsx:85-129 | Nothing is sent when a guard refuses. Otherwise the payload is sent. A truthy returned id resets the session; anything else leaves it unchanged. |
| NewSale.Reset | src/components/sales/NewSaleModal.tsx:174-185 | Empty cart, no customer, no payments, origin Puerta, consumer minorista, empty observations, discount 0. The counter goes up by one and the tax type is kept. |
| NewSale.ResetIdempotentButCounter | src/components/sales/NewSaleModal.tsx:174-185 | Resetting twice differs from resetting once only in the counter. |
| NewSale.HandleSaveDraft | src/components/sales/NewSaleModal.tsx:131-151 | An empty cart writes nothing. Otherwise the written list is the draft store's save of the session's snapshot: the snapshot heads a list of at most three. |
| NewSale.HandleLoadDraft | src/components/sales/NewSaleModal.tsx:157-166 | Items, customer, payments, origin, consumer, observations and tax type come from the draft. The counter and discount are kept. |
| NewSale.LoadSnapshotRestores | src/components/sales/NewSaleModal.tsx:137-166 | Loading a session's own draft restores that session. |
| NewSale.ResetRefusesEverySave | src/components/sales/NewSaleModal.tsx:85-185 | After a reset, a sale save and a draft save are both refused, and nothing is sent or written. |
| NewSale.TwoUnitsExample | src/components/sales/NewSaleModal.tsx:42-95 | Two units at 100 total 200 with tax 0. Paying 242 passes the guard; paying 199 is refused as underpaid. |
| SaleScreen.TogglePayment | src/components/sales/PaymentMethods.tsx:35-54 | The tracker toggles the method against the current sale total, and the session's payments become what it emits. Nothing else in the session changes. |
| SaleScreen.ChangeAmount | src/components/sales/PaymentMethods.tsx:35-59 | The tracker records the typed amount for the method, and the session's payments become what it emits. Nothing else in the session changes. |
| SaleScreen.ResetAsWritten | src/components/sales/NewSaleModal.tsx:309-313 | The reset as the screen performs it: the session is reset and the tracker is kept. |
| SaleScreen.Reset | src/components/sales/NewSaleModal.tsx:174-185 | The intended reset: the session is reset and the tracker restarts, so the two agree. |
| SaleScreen.ResetAsWrittenLosesSync | src/components/sales/NewSaleModal.tsx:309-313 | With any method selected, the reset as written leaves the tracker's selection beside an empty payment list. The corrected reset clears the selection. |
| SaleScreen.ToggleOnSelects | src/components/sales/PaymentMethods.tsx:48-52 | Switching a method on leaves a selection behind. |
| SaleScreen.SaveSaleAsWritten | src/components/sales/NewSaleModal.tsx:116-123 | As written: a registered sale resets the session and keeps the tracker. Anything else leaves the screen unchanged. |
| SaleScreen.SaveSaleAsWrittenLosesSync | src/components/sales/NewSaleModal.tsx:116-123 | As written, a registered sale paid with any selected method leaves the screen out of sync. The corrected save keeps it in sync. |
| SaleScreen.SaveSale | src/components/sales/NewSaleModal.tsx:116-123 | Corrected: a registered sale resets the whole screen, tracker included. Anything else leaves the screen unchanged. |
| SaleScreen.LoadDraft | src/components/sales/NewSaleModal.tsx:157-166 | Loading a draft gives the session every field the draft records (lines, customer, payments, origin, consumer, observations, tax type), and leaves the tracker as it was. |
| SaleScreen.LoadDraftLosesSync | src/components/sales/NewSaleModal.tsx:157-166 | After loading a draft, the screen is in sync exactly when the draft's payments are what the tracker already emits. |
| SaleScreen.EventsKeepSync | src/components/sales/PaymentMethods.tsx:35-41 | The corrected toggle, amount, reset and save events keep the session's payments equal to the tracker's list. |
| SaleScreen.GuardUsesTrackerTotal | src/components/sales/NewSaleModal.tsx:91-95 | In sync, the payment guard compares the tracker's `totalPaid` with the sale total. |
| SaleScreen.ResetAsWrittenRefusesNextSale | src/components/sales/NewSaleModal.tsx:309-313 | Cash covering a sale, then a registered sale, then the same item again: the tracker still covers the total, but the sale is refused as underpaid. |
| Mappers.ItemOf | src/utils/mappers.ts:13-22 | A fetched line becomes a fixed-price cart line keyed by its SKU, with the same quantity and price, and consistent. |
| Mappers.CustomerOf | src/utils/mappers.ts:29-35 | The customer is a natural person with an empty document. Its id is `String(cliente_id)`; its name and last name are copied. |
| Mappers.MapVentaRPC | src/utils/mappers.ts:4-46 | Items mirror `detalles` in length and order, with id = sku, not editable, and consistent. Missing `pagos` gives no payments; otherwise payments mirror them. Origin, consumer type, state and tax type are passed through. |
| Mappers.CustomerIdRoundTrip | src/utils/mappers.ts:30 | For every client id, `Number` of the mapped customer's id gives back that id. |
| Mappers.SessionOf | src/utils/mappers.ts:4-46 | A session holding a mapped sale: it takes the mapped lines, customer, payments, origin, consumer type and tax type, and keeps the rest. No modelled file calls `mapVentaRPC`, so how a fetched sale reaches the screen is assumed. |
| Mappers.RegisterFetchedSale | src/utils/mappers.ts:4-46 | A fetched sale loaded into a session and registered again sends back its client, lines, payments, origin, consumer type and tax type, for every client id. |
| QuantityModal.Open | src/components/modals/ProductQuantityModal.tsx:21-22 | The dialog opens on one unit at the product's price. |
| QuantityModal.ProductChanged | src/components/modals/ProductQuantityModal.tsx:32-34 | A new product resets the price to its price and keeps the quantity. |
| QuantityModal.QuantityTyped | src/components/modals/ProductQuantityModal.tsx:66 | The quantity is at least 1 after any input. Unparsable input and values below 1 give 1; values of at least 1 are kept. |
| QuantityModal.PriceTyped | src/components/modals/ProductQuantityModal.tsx:77 | The price is at least 0 after any input. Unparsable and negative input give 0; non-negative values are kept. |
| QuantityModal.SubtotalPreview | src/components/modals/ProductQuantityModal.tsx:89 | A valid dialog previews a non-negative subtotal. |
| QuantityModal.PreviewMatchesLineSubtotal | src/components/modals/ProductQuantityModal.tsx:89 | The preview equals the subtotal that the cart line with this quantity and price gets. |
| QuantityModal.Submit | src/components/modals/ProductQuantityModal.tsx:36-46 | Submitting hands back the current quantity and price unchanged. |
| QuantityModal.TypingKeepsValid | src/components/modals/ProductQuantityModal.tsx:66-77 | Typing keeps quantity ≥ 1 and price ≥ 0. |
| QuantityModal.PriceInputShownAsWritten | src/components/modals/ProductQuantityModal.tsx:72 | As written, the test reads `isEditable`, which no product has, so the price input is never shown. |
| QuantityModal.PriceInputShown | src/components/modals/ProductQuantityModal.tsx:72 | Corrected: the price input is shown exactly for editable products. |
| QuantityModal.EditablePriceHiddenAsWritten | src/components/modals/ProductQuantityModal.tsx:72 | As written, an editable product gets no price input, although the corrected member (QuantityModal.PriceInputShown) shows one. |
| QuantityModal.PriceEditAsWritten | src/components/modals/ProductQuantityModal.tsx:72-83 | As written, a typed price never takes effect, because its input is never shown. |
| QuantityModal.SubmittedPriceAsWritten | src/components/modals/ProductQuantityModal.tsx:36-83 | As written, every product is submitted at its own price. An editable product with a different typed price is submitted at a price other than the corrected one. |
| QuantityModal.PriceEdit | src/components/modals/ProductQuantityModal.tsx:72-83 | Corrected: a typed price only takes effect for editable products. |
| QuantityModal.SubmittedPrice | src/components/modals/ProductQuantityModal.tsx:36-83 | Corrected: an editable product is submitted at the typed non-negative price. A fixed-price product is submitted at its own price. |
| Inventory.TotalPages | src/components/Inventory/InventoryPage.tsx:82 | The fewest pages of 100 that hold n rows: enough pages, and one fewer would not be enough. There are no pages exactly when there are no rows. |
| Inventory.CurrentItems | src/components/Inventory/InventoryPage.tsx:81-85 | A page has at most 100 rows, starting at row (page − 1) × 100. A page past the end is empty. |
| Inventory.ItemOnItsPage | src/components/Inventory/InventoryPage.tsx:81-85 | Row k is at position k mod 100 of page k div 100 + 1, and that page exists. |
| Inventory.PageNonEmptyIff | src/components/Inventory/InventoryPage.tsx:81-85 | A page has rows exactly when it is within the page count. |
| Inventory.PrevPage | src/components/Inventory/InventoryPage.tsx:426 | "Anterior" never goes below page 1. |
| Inventory.NextPage | src/components/Inventory/InventoryPage.tsx:437 | "Siguiente" never goes above the page count. |
| Inventory.PagingStaysInRange | src/components/Inventory/InventoryPage.tsx:426-438 | From a page in range, both buttons stay in range, and back undoes forward. |
| Inventory.GetStockBadge | src/components/Inventory/InventoryPage.tsx:88-96 | "Sin Stock" exactly at 0. "Stock Bajo" exactly for other stocks up to 10. "En Stock" exactly above 10. The edit dialog's copy (EditInventoryModal.tsx:82-90) is the same. |
| Inventory.SummaryOf | src/components/Inventory/InventoryPage.tsx:236-274 | The total card shows the row count. Each counter is at most the row count. |
| Inventory.CountersAgreeWithBadge | src/components/Inventory/InventoryPage.tsx:88-274 | On a non-negative stock, each counter counts a row exactly when the row's badge is that counter's badge. |
| Inventory.SummaryPartition | src/components/Inventory/InventoryPage.tsx:248-274 | With no negative stock, the three counters add up to the total. |
| Inventory.NegativeStockUncounted | src/components/Inventory/InventoryPage.tsx:88-274 | A row with negative stock shows "Stock Bajo", yet the counters add up to less than the total. |
| Inventory.HandleSaveEdit | src/components/Inventory/InventoryPage.tsx:109-116 | Rows with the edited row's id are replaced by it. The length and the other rows are unchanged. |
| Inventory.SaveEditKeepsIds | src/components/Inventory/InventoryPage.tsx:109-116 | Saving keeps ids unique. Saving an unlisted id changes nothing. |
| Inventory.HandleDelete | src/components/Inventory/InventoryPage.tsx:118-122 | Unconfirmed, nothing changes. Confirmed, no row has the id and every other row remains. |
| Inventory.DeleteKeepsOrder | src/components/Inventory/InventoryPage.tsx:120 | Deletion distributes over concatenation, so the remaining rows keep their order. |
| Inventory.DeleteRemovesOneRow | src/components/Inventory/InventoryPage.tsx:120 | With unique ids, deleting a listed id removes exactly one row. |
| Inventory.HandleInlineChange | src/components/Inventory/InventoryPage.tsx:130-138 | The field is set for that row. The row's other pending fields and every other row's pending edits are unchanged. |
| Inventory.LastInlineChangeWins | src/components/Inventory/InventoryPage.tsx:130-138 | Of two changes to the same field, the later one wins. |
| Inventory.InlineChangesCommute | src/components/Inventory/InventoryPage.tsx:130-138 | Changes to different fields or rows can be made in either order. |
| Inventory.FormatCharacteristics | src/components/Inventory/InventoryPage.tsx:98-102 | No entries give the empty string. One entry gives `key: value`, with a list value joined by `, `. The edit dialog's copy (EditInventoryModal.tsx:76-80) is the same. |
| Inventory.FormatAppend | src/components/Inventory/InventoryPage.tsx:98-102 | Formatting two non-empty groups puts exactly one ` \| ` between them. |
| EditInventory.LoadForm | src/components/Inventory/EditInventoryModal.tsx:28-35 | Opening on a row copies its price, stock and barcode. |
| EditInventory.PrecioTyped | src/components/Inventory/EditInventoryModal.tsx:170 | `parseFloat(text) \|\| 0` sets only the price. |
| EditInventory.StockTyped | src/components/Inventory/EditInventoryModal.tsx:182 | `parseInt(text) \|\| 0` sets only the stock. |
| EditInventory.ValidateForm | src/components/Inventory/EditInventoryModal.tsx:37-54 | A price ≤ 0 flags the price. A negative stock flags the stock. A blank barcode flags the barcode. The form is valid exactly when nothing is flagged. |
| EditInventory.HandleSave | src/components/Inventory/EditInventoryModal.tsx:56-69 | Without a row, or with any error, nothing is saved. Otherwise the row changes only in price, stock, barcode and update time, which take the form's values and `now`. |
| EditInventory.SavedRowReloadsClean | src/components/Inventory/EditInventoryModal.tsx:28-69 | A saved row reopens as the same form, with no errors. |
| EditInventory.SaveUntouched | src/components/Inventory/EditInventoryModal.tsx:56-69 | Saving a valid row unedited changes only its update time. |
| EditInventory.SaveReachesPage | src/components/Inventory/InventoryPage.tsx:109-116 | After a successful save, every page row with that id shows the saved price, stock and barcode. |
| AddCustomer.NormalizarDocumento | src/components/customers/AddCustomerModal.tsx:53 | The cleaned document is made only of digits and is no longer than the input. |
| AddCustomer.NormalizarDocumentoKeepsDigits | src/components/customers/AddCustomerModal.tsx:53 | Cleaning keeps exactly the digits, in order, one character at a time, and is idempotent. |
| AddCustomer.NormalizarTexto | src/components/customers/AddCustomerModal.tsx:54 | Absent or blank text gives null. Otherwise the result is the lower-cased trim of the text: non-empty, no whitespace at either end and no upper-case letter. |
| AddCustomer.NormalizarTextoIdempotent | src/components/customers/AddCustomerModal.tsx:54 | Normalising normalised text changes nothing. |
| AddCustomer.TrimOrNull | src/components/customers/AddCustomerModal.tsx:64-65 | Blank text gives null. Otherwise the trimmed, non-empty text is returned. |
| AddCustomer.ResetForm | src/components/customers/AddCustomerModal.tsx:37-46 | Natural person, empty text fields, and the document the dialog was opened with. |
| AddCustomer.OpenForm | src/components/customers/AddCustomerModal.tsx:26-33 | The dialog opens on a natural person with empty text fields and the document it was opened with. |
| AddCustomer.ResetRestoresOpenForm | src/components/customers/AddCustomerModal.tsx:26-46 | Resetting any form gives exactly the form the dialog opens with. |
| AddCustomer.BuildRegistro | src/components/customers/AddCustomerModal.tsx:72-83 | `dni` is set exactly for a natural person and `cuit` exactly for a legal entity, never both, each to the cleaned document. Texts are normalised; phone and address are trimmed or null. |
| AddCustomer.NonEmpty | src/components/customers/AddCustomerModal.tsx:98-103 | `text \|\| undefined`: empty text is absent. Other text is kept. |
| AddCustomer.HandleSubmit | src/components/customers/AddCustomerModal.tsx:56-108 | A payload is sent exactly when a user is signed in. A null or 0 returned id adds no customer and keeps the form. Otherwise the typed customer is added and the form is reset. Its id is the returned id (read back by `Number`), or `now` without a user. |
| AddCustomer.JuridicoSendsCuit | src/components/customers/AddCustomerModal.tsx:78-79 | A legal entity is registered with a CUIT and without a DNI. |
| CustomerLookup.SearchCustomer | src/components/sales/CustomerSearch.tsx:15-33 | A blank query changes nothing and calls nobody. Otherwise the caller and the selection get the same result. A customer is found exactly when some document has the query's digits, and it is the first such customer. |
| CustomerLookup.SearchIgnoresFormatting | src/components/sales/CustomerSearch.tsx:19-21 | Two non-blank queries with the same digits find the same customer. |
| CustomerLookup.SearchFindsOwnDocument | src/components/sales/CustomerSearch.tsx:19-21 | With documents distinct by digits, searching a customer's own document finds that customer. |
| CustomerLookup.DigitlessQueryMatchesDigitlessDocument | src/components/sales/CustomerSearch.tsx:17-21 | A non-blank query without digits selects a customer whenever some customer's document has no digits: the first such customer in the list. |
| CustomerLookup.ClearCustomer | src/components/sales/CustomerSearch.tsx:35-39 | The selection and the query are cleared, and the caller is told "no customer". |
| Variants.AddVariant | src/components/products/VariantsModal.tsx:24-28 | A selected kind is ignored. A new kind is added with no values and becomes current. |
| Variants.RemoveVariant | src/components/products/VariantsModal.tsx:30-33 | Only that kind is removed. Every other kind keeps its values. |
| Variants.RemoveUndoesAdd | src/components/products/VariantsModal.tsx:24-33 | Removing a kind just added restores the selection. |
| Variants.AddValue | src/components/products/VariantsModal.tsx:35-53 | A blank name changes nothing. Otherwise exactly one value is appended to that kind's list (created when missing), the inputs are cleared and the other kinds are unchanged. |
| Variants.DropIndex | src/components/products/VariantsModal.tsx:58 | `filter((_, i) => i !== index)` drops exactly the element at the index and keeps the order of the rest. An index out of range drops nothing. |
| Variants.RemoveValue | src/components/products/VariantsModal.tsx:55-60 | Only that kind's list changes, by dropping the indexed value. |
| Variants.RemoveUndoesAddValue | src/components/products/VariantsModal.tsx:35-60 | Removing the value just added restores the lists. |
| Variants.AvailableOptions | src/components/products/VariantsModal.tsx:133 | The offered kinds are exactly the catalogue entries not yet selected. |
| Variants.AvailableOptionsAppend | src/components/products/VariantsModal.tsx:133 | The filter distributes over concatenation, so catalogue order is kept. |
| Variants.SelectionUpdatesOffer | src/components/products/VariantsModal.tsx:24-33 | Selecting a kind removes it from the offer. Removing it offers it again. |

## Left out

- Browser storage (src/utils/draft.ts:7-8, 14). `localStorage` and the JSON encoding are replaced by an `Option<seq<SaleDraft>>`. Corrupt stored JSON, which makes `JSON.parse` throw, is not modelled.
- `formatCurrency` (src/utils/calculations.ts:15-20). It is locale formatting for display only.
- Clocks and generated ids. `uuidv4()`, `Date.now()` and `new Date().toISOString()` are parameters: the draft id, `now` in `AddCustomer.HandleSubmit` and `EditInventory.HandleSave`.
- Backend calls. `registrarVenta`, `registrarCliente`, `fetchInventarioAvanzado`, `fetchOpcionesFiltros` and `fetchUpsertInventario` are remote. Their results are parameters (`response`, `registered`, the fetched sale). The inventory's search term and filters only reach the backend, so they are not modelled. A rejected promise is not modelled.
- The inventory's pending-edit upsert on Enter or blur (InventoryPage.tsx:318-328). It only hands the pending fields of a row to the backend.
- Text-to-number parsing. `parseInt`, `parseFloat` and `Number` on input text arrive already parsed, with `None` for `NaN`. JavaScript floating-point rounding is replaced by exact reals.
- Payments.AmountChange: takes a real amount. The source passes `parseFloat(text)`, which is `NaN` for an emptied input; that case is not modelled.
- Text.NumberOf: reads only plain digits with an optional leading minus sign. `Number` also accepts surrounding whitespace, a leading `+`, decimals, exponents, `0x`/`0o`/`0b` prefixes and `Infinity`; those forms are `NaN` in the model.
- SaleScreen.LoadDraft: loading a draft sets the session's payments but does not tell the payment tracker (NewSaleModal.tsx:157-166), so the two disagree whenever the draft's payments differ from what the tracker emits. The code does not say how the tracker should take up a draft's payments, so no corrected load is modelled; `SaleScreen.LoadDraftLosesSync` states the disagreement.
- Text.Trim: strips only the ASCII whitespace, no-break space and byte-order mark. Unicode space separators and line separators, which JavaScript's `trim` also strips, are not modelled.
- Text.ToLower: lower-cases only ASCII letters; other scripts are left as they are.
- Inventory.FormatCharacteristics: takes the entries in a given order. `Object.entries` (InventoryPage.tsx:99) lists integer-like keys first in ascending order and then the other keys in insertion order, and an object cannot hold the same key twice; the model neither reorders the entries nor excludes duplicate keys.
- Variant values. The source stores `JSON.stringify` of the four inputs (VariantsModal.tsx:43). The model keeps the record itself.
- The order of `Object.keys` over the selected variants, and the fixed catalogue in variant-options.ts. The catalogue is a parameter of `Variants.AvailableOptions`.
- Inventory characteristic values. The model's scalar values arrive as the text `${value}` would give.
- Inventory.CurrentItems: requires page ≥ 1. The page starts at 1 and both buttons keep it there. Resetting to page 1 when a filter changes (InventoryPage.tsx:41-43) is a React effect and is not modelled.
- React mechanics: effects, the 300 ms debounce (InventoryPage.tsx:46-65), keyboard shortcuts, focus handling, printing, alerts and confirms (modelled as a `confirmed` flag), and the `mostrar` flag set on draft load.
- `isChange` (PaymentMethods.tsx:66-68). It is `Payments.Change > 0`, covered by `Payments.RemainingAndChange`.
- The sale screen renders `CustomerSearch` without its `customers` list (NewSaleModal.tsx:216), so `customers.find` would fail on `undefined`. `CustomerLookup.SearchCustomer` takes the list as a parameter.
- Mappers.MapVentaRPC: `p.metodo as PaymentMethod` is an unchecked cast. The model's fetched payments are already typed, as the declared `VentaRPC` says.
- Tax. Tax is computed at the default rate 0 (NewSaleModal.tsx:44); `Calculations.TwentyOnePercentExample` shows the calculator at 21%.
- Saving over an existing draft id moves it to the front (draft.ts:13).
- `remaining` is `total - totalPaid` and goes negative on overpayment (PaymentMethods.tsx:63).

## Findings

| source | as written | input that shows it | evidently intended | confidence | as-written member | corrected member |
|---|---|---|---|---|---|---|
| src/components/modals/ProductQuantityModal.tsx:72 | The price input is shown when `product.isEditable` holds, but `Product` has no such field (its flag is `editable`), so the input never appears. | Any product with `editable: true`: no price input is shown, so the dialog always submits the catalogue price. | Show the price input when `product.editable` holds. | not executed | QuantityModal.EditablePriceHiddenAsWritten | QuantityModal.PriceInputShown |
| src/components/sales/NewSaleModal.tsx:309-313 | The screen passes `resetTrigger={resetKey}` to the payment tracker, which reads no such property (PaymentMethods.tsx:8-11). A reset clears the session's payments, but the tracker keeps its selection and amounts and does not emit again. | Add an item, switch cash on, and register the sale. Add the same item again: the tracker shows cash covering the total, but the session holds no payment, so saving is refused as underpaid. | The tracker restarts with the session on reset. | not executed | SaleScreen.ResetAsWrittenRefusesNextSale | SaleScreen.Reset |

=== FILE: calculations.dfy ===
/** The money calculator: cart subtotal, tax, total and the line-subtotal refresh. */
module Calculations {
  import opened Types
  import Keyed

  function StoredSubtotal(item: CartItem): real {
    item.subtotal
  }

  function PriceTimesQuantity(item: CartItem): real {
    item.price * item.quantity as real
  }

  /** The cart subtotal: the sum of each line's stored `subtotal` field. */
  function CalculateSubtotal(items: seq<CartItem>): (r: real)
    ensures items == [] ==> r == 0.0
    ensures |items| == 1 ==> r == items[0].subtotal
  {
    var r := Keyed.Sum(items, StoredSubtotal);
    if |items| == 1 then
      assert items == [items[0]];
      Keyed.SumSingleton(items[0], StoredSubtotal);
      r
    else r
  }

  /** The subtotal of two carts put together is the sum of their subtotals. */
  lemma SubtotalAppend(a: seq<CartItem>, b: seq<CartItem>)
    ensures CalculateSubtotal(a + b) == CalculateSubtotal(a) + CalculateSubtotal(b)
  {
    Keyed.SumAppend(a, b, StoredSubtotal);
  }

  /** When every line is consistent, the subtotal is the sum of price times quantity. */
  lemma SubtotalOfConsistentCart(items: seq<CartItem>)
    requires forall i :: 0 <= i < |items| ==> Consistent(items[i])
    ensures CalculateSubtotal(items) == Keyed.Sum(items, PriceTimesQuantity)
  {
    Keyed.SumCongruent(items, StoredSubtotal, PriceTimesQuantity);
  }

  /** Tax on a subtotal at a rate; the rate defaults to 0, so the default tax is 0. */
  function CalculateTax(subtotal: real, taxRate: real := 0.0): (r: real)
    ensures taxRate == 0.0 ==> r == 0.0
    ensures subtotal >= 0.0 && taxRate >= 0.0 ==> r >= 0.0
  {
    subtotal * taxRate
  }

  /** The grand total; discount and tax default to 0, so the default total is the subtotal. */
  function CalculateTotal(subtotal: real, discount: real := 0.0, tax: real := 0.0): (r: real)
    ensures r + discount - tax == subtotal
    ensures discount == 0.0 && tax == 0.0 ==> r == subtotal
  {
    subtotal - discount + tax
  }

  /** Without a discount, the total at a rate is the subtotal scaled by one plus the rate. */
  lemma TotalAtRate(subtotal: real, taxRate: real)
    ensures CalculateTotal(subtotal, 0.0, CalculateTax(subtotal, taxRate)) == subtotal * (1.0 + taxRate)
  {
  }

  /** A cart of two units at 100 with a 21% rate has subtotal 200, tax 42 and total 242. */
  lemma TwentyOnePercentExample()
    ensures var cart := [CartItem("A", "A", "", "A", 100.0, false, 2, 200.0)];
      var s := CalculateSubtotal(cart);
      s == 200.0 && CalculateTax(s, 0.21) == 42.0 && CalculateTotal(s, 0.0, CalculateTax(s, 0.21)) == 242.0
  {
  }

  /**
   * Recomputes a line's subtotal as price times quantity.  The incoming
   * `subtotal` is ignored: the source's argument type has none.
   */
  function UpdateCartItemSubtotal(item: CartItem): (r: CartItem)
    ensures Consistent(r)
    ensures r.(subtotal := item.subtotal) == item
  {
    item.(subtotal := item.price * item.quantity as real)
  }

  /** Refreshing is idempotent and does not change a line that is already consistent. */
  lemma UpdateSubtotalFixesConsistent(item: CartItem)
    ensures UpdateCartItemSubtotal(UpdateCartItemSubtotal(item)) == UpdateCartItemSubtotal(item)
    ensures Consistent(item) <==> UpdateCartItemSubtotal(item) == item
  {
  }
}

=== FILE: cart.dfy ===
/**
 * The cart of the new-sale screen: an ordered list of lines keyed by product
 * id, with add-with-merge, replace-by-id and remove-by-id.
 */
module Cart {
  import opened Types
  import Keyed
  import Calculations

  /** Every line's subtotal is its price times its quantity. */
  ghost predicate AllConsistent(cart: seq<CartItem>) {
    forall i :: 0 <= i < |cart| ==> Consistent(cart[i])
  }

  /** No two lines carry the same product id. */
  ghost predicate IdsUnique(cart: seq<CartItem>) {
    Keyed.UniqueKeys(cart, ItemId)
  }

  /** The line for `existing` after `extra` more units were added at the line's own price. */
  function Merged(existing: CartItem, extra: int): CartItem {
    existing.(quantity := existing.quantity + extra,
              subtotal := existing.price * (existing.quantity + extra) as real)
  }

  /**
   * Adds `item` to the cart: the first line with the same id absorbs its
   * quantity and keeps its own price; otherwise `item` becomes the last line.
   */
  function AddToCart(cart: seq<CartItem>, item: CartItem): (r: seq<CartItem>)
    ensures var i := Keyed.FindIndex(cart, ItemId, item.id);
      i >= 0 ==> (
        && |r| == |cart|
        && r[i].quantity == cart[i].quantity + item.quantity
        && r[i].price == cart[i].price
        && Consistent(r[i])
        && r[i].(quantity := cart[i].quantity, subtotal := cart[i].subtotal) == cart[i]
        && forall j :: 0 <= j < |cart| && j != i ==> r[j] == cart[j])
    ensures !Keyed.HasKey(cart, ItemId, item.id) ==> r == cart + [item]
  {
    var i := Keyed.FindIndex(cart, ItemId, item.id);
    if i != -1 then cart[i := Merged(cart[i], item.quantity)] else cart + [item]
  }

  /** Adding never creates a second line for an id. */
  lemma AddKeepsIdsUnique(cart: seq<CartItem>, item: CartItem)
    requires IdsUnique(cart)
    ensures IdsUnique(AddToCart(cart, item))
  {
    var r := AddToCart(cart, item);
    var i := Keyed.FindIndex(cart, ItemId, item.id);
    if i == -1 {
      forall a, b | 0 <= a < b < |r| ensures r[a].id != r[b].id {
        if b == |cart| {
          assert r[a] == cart[a];
        } else {
          assert r[a] == cart[a] && r[b] == cart[b];
        }
      }
    } else {
      forall a, b | 0 <= a < b < |r| ensures r[a].id != r[b].id {
        assert r[a].id == cart[a].id && r[b].id == cart[b].id;
      }
    }
  }

  /** Adding an id already in the cart keeps the number of lines; a new id adds one line. */
  lemma AddLineCount(cart: seq<CartItem>, item: CartItem)
    ensures Keyed.HasKey(cart, ItemId, item.id) ==> |AddToCart(cart, item)| == |cart|
    ensures !Keyed.HasKey(cart, ItemId, item.id) ==> |AddToCart(cart, item)| == |cart| + 1
  {
  }

  /** Adding keeps every line consistent when the cart and the incoming line are. */
  lemma AddKeepsConsistent(cart: seq<CartItem>, item: CartItem)
    requires AllConsistent(cart) && Consistent(item)
    ensures AllConsistent(AddToCart(cart, item))
  {
  }

  /** What `extra` more units add to a line at `price`. */
  function ExtraCost(price: real, extra: int): real {
    price * extra as real
  }

  /**
   * Adding raises the subtotal by the incoming line's subtotal when it is new,
   * and by the existing price times the added quantity when it merges.
   */
  lemma AddRaisesSubtotal(cart: seq<CartItem>, item: CartItem)
    requires AllConsistent(cart)
    ensures var i := Keyed.FindIndex(cart, ItemId, item.id);
      Calculations.CalculateSubtotal(AddToCart(cart, item))
      == Calculations.CalculateSubtotal(cart)
         + (if i >= 0 then ExtraCost(cart[i].price, item.quantity) else item.subtotal)
  {
    var i := Keyed.FindIndex(cart, ItemId, item.id);
    if i >= 0 {
      assert AddToCart(cart, item) == cart[i := Merged(cart[i], item.quantity)];
      SubtotalAfterMerge(cart, i, item.quantity);
    } else {
      Calculations.SubtotalAppend(cart, [item]);
    }
  }

  lemma SubtotalAfterMerge(cart: seq<CartItem>, i: nat, extra: int)
    requires i < |cart| && Consistent(cart[i])
    ensures Calculations.CalculateSubtotal(cart[i := Merged(cart[i], extra)])
      == Calculations.CalculateSubtotal(cart) + ExtraCost(cart[i].price, extra)
  {
    Keyed.SumUpdate(cart, i, Merged(cart[i], extra), Calculations.StoredSubtotal);
    MergedRaise(cart[i], extra);
  }

  lemma MergedRaise(existing: CartItem, extra: int)
    requires Consistent(existing)
    ensures Merged(existing, extra).subtotal == existing.subtotal + ExtraCost(existing.price, extra)
  {
    var p := existing.price;
    var q := existing.quantity as real;
    var e := extra as real;
    assert (existing.quantity + extra) as real == q + e;
    assert p * (q + e) == p * q + p * e;
  }

  /** `cart.map(i => i.id === item.id ? item : i)`: the line with the item's id becomes the item. */
  function UpdateItem(cart: seq<CartItem>, item: CartItem): (r: seq<CartItem>)
    ensures |r| == |cart|
    ensures forall j :: 0 <= j < |cart| ==> r[j].id == cart[j].id
    ensures forall j :: 0 <= j < |cart| && cart[j].id == item.id ==> r[j] == item
    ensures forall j :: 0 <= j < |cart| && cart[j].id != item.id ==> r[j] == cart[j]
  {
    Keyed.ReplaceKeyKeepsKeys(cart, ItemId, item);
    Keyed.ReplaceKey(cart, ItemId, item)
  }

  /** Replacing a line keeps the ids unique and, for a consistent line, the cart consistent. */
  lemma UpdateKeepsInvariants(cart: seq<CartItem>, item: CartItem)
    requires IdsUnique(cart)
    ensures IdsUnique(UpdateItem(cart, item))
    ensures AllConsistent(cart) && Consistent(item) ==> AllConsistent(UpdateItem(cart, item))
  {
    Keyed.ReplaceKeyUnique(cart, ItemId, item);
  }

  /** `cart.filter(i => i.id !== id)`: drops every line with that id. */
  function RemoveItem(cart: seq<CartItem>, id: string): (r: seq<CartItem>)
    ensures !Keyed.HasKey(r, ItemId, id)
    ensures forall x :: x in r <==> x in cart && x.id != id
  {
    Keyed.RemoveKeyGone(cart, ItemId, id);
    Keyed.RemoveKey(cart, ItemId, id)
  }

  /** Removing a line that was just appended gives back the cart as it was. */
  lemma RemoveUndoesNewAdd(cart: seq<CartItem>, item: CartItem)
    requires !Keyed.HasKey(cart, ItemId, item.id)
    ensures RemoveItem(AddToCart(cart, item), item.id) == cart
  {
    Keyed.RemoveKeyAppend(cart, [item], ItemId, item.id);
    Keyed.RemoveAbsentKey(cart, ItemId, item.id);
  }

  /** Removal keeps ids unique and lines consistent, and never raises the line count. */
  lemma RemoveKeepsInvariants(cart: seq<CartItem>, id: string)
    requires IdsUnique(cart)
    ensures IdsUnique(RemoveItem(cart, id))
    ensures AllConsistent(cart) ==> AllConsistent(RemoveItem(cart, id))
    ensures |RemoveItem(cart, id)| <= |cart|
  {
    Keyed.RemoveKeyUnique(cart, ItemId, id);
    var r := RemoveItem(cart, id);
    if AllConsistent(cart) {
      forall j | 0 <= j < |r| ensures Consistent(r[j]) {
        assert r[j] in cart;
      }
    }
  }
}

=== FILE: customers.dfy ===
/**
 * The add-customer dialog: normalisation of the typed fields, the
 * registration payload, and the customer handed to the caller.
 */
module AddCustomer {
  import opened Wrappers
  import opened Types
  import Text

  /** `doc.replace(/\D/g, '')`. */
  function NormalizarDocumento(doc: string): (r: string)
    ensures Text.AllDigits(r) && |r| <= |doc|
  {
    Text.DigitsOnly(doc)
  }

  /** The cleaned document keeps exactly the digits, in order: one character at a time, and concatenation distributes. */
  lemma NormalizarDocumentoKeepsDigits(a: string, c: char)
    ensures NormalizarDocumento(a + [c]) == NormalizarDocumento(a) + (if Text.IsDigit(c) then [c] else "")
    ensures NormalizarDocumento(NormalizarDocumento(a)) == NormalizarDocumento(a)
  {
    Text.DigitsOnlyAppend(a, [c]);
    Text.DigitsOnlyChar(c);
    Text.DigitsOnlyIdempotent(a);
  }

  /** `text?.trim().toLowerCase() || null`: absent and blank text give `None`. */
  function NormalizarTexto(text: Option<string>): (r: Option<string>)
    ensures r.None? <==> text.None? || Text.IsBlank(text.value)
    ensures r.Some? ==> text.Some? && r.value != [] && |r.value| <= |text.value|
    ensures r.Some? ==> !Text.IsWhitespace(r.value[0]) && !Text.IsWhitespace(r.value[|r.value| - 1])
    ensures r.Some? ==> forall i :: 0 <= i < |r.value| ==> !('A' <= r.value[i] <= 'Z')
    ensures r.Some? ==> r.value == Text.ToLower(Text.Trim(text.value))
  {
    if text.None? then None
    else
      var t := Text.ToLower(Text.Trim(text.value));
      if t == [] then None else Some(t)
  }

  /** Normalising normalised text changes nothing. */
  lemma {:induction false} NormalizarTextoIdempotent(text: Option<string>)
    ensures NormalizarTexto(NormalizarTexto(text)) == NormalizarTexto(text)
  {
    var r := NormalizarTexto(text);
    if r.Some? {
      Text.TrimOfTrimmed(r.value);
      Text.ToLowerIdempotent(Text.Trim(text.value));
    }
  }

  /** `text?.trim() || null`, for the phone and address. */
  function TrimOrNull(text: string): (r: Option<string>)
    ensures r.None? <==> Text.IsBlank(text)
    ensures r.Some? ==> r.value == Text.Trim(text) && r.value != []
  {
    var t := Text.Trim(text);
    if t == [] then None else Some(t)
  }

  /** The dialog's inputs. */
  datatype CustomerForm = CustomerForm(
    kind: CustomerType,
    name: string,
    lastName: string,
    businessName: string,
    document: string,
    phone: string,
    email: string,
    address: string)

  /** The form when the dialog opens. */
  function OpenForm(initialDocument: string): (r: CustomerForm)
    ensures r.kind == Natural && r.document == initialDocument
    ensures r.name == "" && r.lastName == "" && r.businessName == ""
    ensures r.phone == "" && r.email == "" && r.address == ""
  {
    CustomerForm(Natural, "", "", "", initialDocument, "", "", "")
  }

  /** `resetForm`: natural person, empty text fields, the document the dialog was opened with. */
  function ResetForm(f: CustomerForm, initialDocument: string): (r: CustomerForm)
    ensures r.kind == Natural && r.document == initialDocument
    ensures r.name == "" && r.lastName == "" && r.businessName == ""
    ensures r.phone == "" && r.email == "" && r.address == ""
  {
    f.(kind := Natural, name := "", lastName := "", businessName := "", document := initialDocument,
       phone := "", email := "", address := "")
  }

  /** Resetting any form gives the form the dialog opened with. */
  lemma ResetRestoresOpenForm(f: CustomerForm, initialDocument: string)
    ensures ResetForm(f, initialDocument) == OpenForm(initialDocument)
  {
  }

  /** The customer-registration payload. */
  datatype RegistroCliente = RegistroCliente(
    tipo: CustomerType,
    email: Option<string>,
    nombre: Option<string>,
    apellido: Option<string>,
    razonSocial: Option<string>,
    dni: Option<string>,
    cuit: Option<string>,
    telefono: Option<string>,
    direccion: Option<string>,
    createdBy: string)

  /** The payload: normalised texts, the cleaned document as `dni` or `cuit` by customer type. */
  function BuildRegistro(f: CustomerForm, userId: string): (r: RegistroCliente)
    ensures r.dni.Some? <==> f.kind == Natural
    ensures r.cuit.Some? <==> f.kind == Juridico
    ensures !(r.dni.Some? && r.cuit.Some?)
    ensures r.dni.Some? ==> r.dni.value == NormalizarDocumento(f.document)
    ensures r.cuit.Some? ==> r.cuit.value == NormalizarDocumento(f.document)
    ensures r.email == NormalizarTexto(Some(f.email)) && r.nombre == NormalizarTexto(Some(f.name))
    ensures r.apellido == NormalizarTexto(Some(f.lastName))
    ensures r.razonSocial == NormalizarTexto(Some(f.businessName))
    ensures r.telefono == TrimOrNull(f.phone) && r.direccion == TrimOrNull(f.address)
    ensures r.tipo == f.kind && r.createdBy == userId
  {
    var doc := NormalizarDocumento(f.document);
    RegistroCliente(
      f.kind,
      NormalizarTexto(Some(f.email)),
      NormalizarTexto(Some(f.name)),
      NormalizarTexto(Some(f.lastName)),
      NormalizarTexto(Some(f.businessName)),
      if f.kind == Natural then Some(doc) else None,
      if f.kind == Juridico then Some(doc) else None,
      TrimOrNull(f.phone),
      TrimOrNull(f.address),
      userId)
  }

  /** `text || undefined`. */
  function NonEmpty(text: string): (r: Option<string>)
    ensures r.None? <==> text == ""
    ensures r.Some? ==> r.value == text
  {
    if text == "" then None else Some(text)
  }

  /**
   * The result of submitting: the form afterwards, the registration payload
   * sent (`None`: not sent) and the customer handed to the caller (`None`: none).
   */
  datatype SubmitOutcome = SubmitOutcome(form: CustomerForm, sent: Option<RegistroCliente>, added: Option<Customer>)

  /**
   * Submitting the form.  `userId` is the signed-in user's id (`""` when there
   * is none, and then nothing is registered); `registered` is the id the
   * registration returns (`None` for null); `now` is `Date.now().toString()`.
   * A returned id of 0 is refused like a missing one.  The customer handed
   * on carries the typed, not the normalised, fields.
   */
  function HandleSubmit(f: CustomerForm, initialDocument: string, userId: string,
                        registered: Option<int>, now: string): (r: SubmitOutcome)
    ensures r.sent.Some? <==> userId != ""
    ensures r.sent.Some? ==> r.sent.value == BuildRegistro(f, userId)
    ensures r.added.None? <==> userId != "" && (registered.None? || registered.value == 0)
    ensures r.added.None? ==> r.form == f
    ensures r.added.Some? ==> r.form == OpenForm(initialDocument)
    ensures r.added.Some? && userId == "" ==> r.added.value.id == now
    ensures r.added.Some? && userId != "" ==>
      Text.NumberOf(r.added.value.id) == Some(registered.value)
    ensures r.added.Some? ==> r.added.value.kind == f.kind && r.added.value.name == f.name
    ensures r.added.Some? ==> r.added.value.document == f.document
    ensures r.added.Some? ==> r.added.value.lastName == NonEmpty(f.lastName)
    ensures r.added.Some? ==> r.added.value.businessName == NonEmpty(f.businessName)
    ensures r.added.Some? ==> r.added.value.phone == NonEmpty(f.phone) && r.added.value.email == NonEmpty(f.email)
    ensures r.added.Some? ==> r.added.value.address == NonEmpty(f.address)
  {
    var sent := if userId != "" then Some(BuildRegistro(f, userId)) else None;
    var clienteId := if userId != "" then registered else None;
    if userId != "" && (clienteId.None? || clienteId.value == 0) then
      SubmitOutcome(f, sent, None)
    else
      var id := if clienteId.Some? && clienteId.value != 0 then Text.IntToString(clienteId.value) else now;
      var c := Customer(id, f.kind, f.name, NonEmpty(f.lastName), f.document, NonEmpty(f.businessName),
                        NonEmpty(f.phone), NonEmpty(f.email), NonEmpty(f.address));
      if clienteId.Some? && clienteId.value != 0 then
        Text.NumberOfIntToString(clienteId.value);
        SubmitOutcome(ResetForm(f, initialDocument), sent, Some(c))
      else SubmitOutcome(ResetForm(f, initialDocument), sent, Some(c))
  }

  /** A juridical customer is registered with a CUIT and no DNI, whatever was typed. */
  lemma JuridicoSendsCuit(f: CustomerForm, userId: string, registered: Option<int>, now: string)
    requires f.kind == Juridico && userId != ""
    ensures var s := HandleSubmit(f, "", userId, registered, now).sent.value;
      s.dni.None? && s.cuit == Some(NormalizarDocumento(f.document))
  {
  }
}

/**
 * The document search of the sale screen: finds the first customer whose
 * document has the same digits as the query.
 */
module CustomerLookup {
  import opened Wrappers
  import opened Types
  import Keyed
  import Text

  datatype SearchState = SearchState(query: string, selected: Option<Customer>)

  /** The digits of a customer's document, the key the search compares. */
  function DocumentKey(c: Customer): string {
    Text.DigitsOnly(c.document)
  }

  /**
   * The state after a search, and what the caller is told: `None` when it is
   * not called, `Some(None)` for "no customer", `Some(Some(c))` for `c`.
   */
  datatype SearchOutcome = SearchOutcome(state: SearchState, notified: Option<Option<Customer>>)

  /** `searchCustomer`: blank queries are ignored; otherwise the first customer with matching digits, if any. */
  function SearchCustomer(st: SearchState, customers: seq<Customer>): (r: SearchOutcome)
    ensures Text.IsBlank(st.query) ==> r == SearchOutcome(st, None)
    ensures !Text.IsBlank(st.query) ==> r.notified == Some(r.state.selected) && r.state.query == st.query
    ensures !Text.IsBlank(st.query) ==>
      (r.state.selected.Some? <==> Keyed.HasKey(customers, DocumentKey, Text.DigitsOnly(st.query)))
    ensures r.state.selected.Some? && !Text.IsBlank(st.query) ==>
      exists i :: 0 <= i < |customers| && customers[i] == r.state.selected.value
        && DocumentKey(customers[i]) == Text.DigitsOnly(st.query)
        && forall j :: 0 <= j < i ==> DocumentKey(customers[j]) != Text.DigitsOnly(st.query)
  {
    if Text.IsBlank(st.query) then SearchOutcome(st, None)
    else
      var i := Keyed.FindIndex(customers, DocumentKey, Text.DigitsOnly(st.query));
      var found := if i >= 0 then Some(customers[i]) else None;
      SearchOutcome(st.(selected := found), Some(found))
  }

  /** Only the digits of the query matter: two queries with the same digits find the same customer. */
  lemma SearchIgnoresFormatting(st: SearchState, q1: string, q2: string, customers: seq<Customer>)
    requires !Text.IsBlank(q1) && !Text.IsBlank(q2) && Text.DigitsOnly(q1) == Text.DigitsOnly(q2)
    ensures SearchCustomer(st.(query := q1), customers).state.selected
         == SearchCustomer(st.(query := q2), customers).state.selected
  {
  }

  /** Searching for a listed customer's own document finds that customer when documents are distinct by digits. */
  lemma SearchFindsOwnDocument(st: SearchState, customers: seq<Customer>, k: nat)
    requires k < |customers| && Keyed.UniqueKeys(customers, DocumentKey)
    requires st.query == customers[k].document && !Text.IsBlank(st.query)
    ensures SearchCustomer(st, customers).state.selected == Some(customers[k])
  {
  }

  /** `cs[i]` is the first customer in `cs` whose document has no digits. */
  predicate FirstDigitless(cs: seq<Customer>, i: int) {
    0 <= i < |cs| && Text.DigitsOnly(cs[i].document) == ""
    && forall j :: 0 <= j < i ==> Text.DigitsOnly(cs[j].document) != ""
  }

  /**
   * A query that is not blank but has no digits matches every customer whose
   * document has no digits (an empty document, say): the first such customer
   * in the list is selected.
   */
  lemma DigitlessQueryMatchesDigitlessDocument(st: SearchState, cs: seq<Customer>, k: nat)
    requires !Text.IsBlank(st.query) && Text.DigitsOnly(st.query) == ""
    requires k < |cs| && Text.DigitsOnly(cs[k].document) == ""
    ensures var sel := SearchCustomer(st, cs).state.selected;
      sel.Some? && exists i :: FirstDigitless(cs, i) && i <= k && sel.value == cs[i]
  {
    assert DocumentKey(cs[k]) == "";
  }

  /** `clearCustomer`: no selection, empty query, and the caller is told "no customer". */
  function ClearCustomer(st: SearchState): (r: SearchOutcome)
    ensures r.state.selected.None? && r.state.query == "" && r.notified == Some(None)
  {
    SearchOutcome(SearchState("", None), Some(None))
  }
}

=== FILE: draft.dfy ===
/**
 * The draft store: at most three saved sales, most recent first, kept under
 * one storage key.  The stored value is `None` while nothing was ever written.
 */
module DraftStore {
  import opened Wrappers
  import opened Types
  import Keyed

  const MaxDrafts: nat := 3

  /** The stored list, or the empty list when nothing is stored. */
  function GetDrafts(stored: Option<seq<SaleDraft>>): (r: seq<SaleDraft>)
    ensures stored.None? ==> r == []
    ensures stored.Some? ==> r == stored.value
  {
    stored.GetOr([])
  }

  /** The stored drafts other than those with id `id`, oldest last. */
  function Others(stored: Option<seq<SaleDraft>>, id: string): seq<SaleDraft> {
    Keyed.RemoveKey(GetDrafts(stored), DraftId, id)
  }

  /**
   * The list written back when `draft` is saved: the draft first, then the
   * other stored drafts without any entry of the same id, cut to three.
   */
  function SaveDraft(stored: Option<seq<SaleDraft>>, draft: SaleDraft): (r: seq<SaleDraft>)
    ensures 1 <= |r| <= MaxDrafts
    ensures r[0] == draft
    ensures forall i :: 1 <= i < |r| ==> r[i].id != draft.id
    ensures var others := Others(stored, draft.id);
      |r| == (if 1 + |others| < MaxDrafts then 1 + |others| else MaxDrafts)
      && r[1..] == others[..|r| - 1]
  {
    var others := Others(stored, draft.id);
    var updated := [draft] + others;
    var r := if |updated| > MaxDrafts then updated[..MaxDrafts] else updated;
    assert r[1..] == others[..|r| - 1];
    assert forall i :: 1 <= i < |r| ==> r[i] in others;
    r
  }

  /** Saving the same draft twice leaves the same list as saving it once. */
  lemma SaveDraftIdempotent(stored: Option<seq<SaleDraft>>, draft: SaleDraft)
    ensures SaveDraft(Some(SaveDraft(stored, draft)), draft) == SaveDraft(stored, draft)
  {
    var l := SaveDraft(stored, draft);
    assert l == [draft] + l[1..];
    Keyed.RemoveKeyAppend([draft], l[1..], DraftId, draft.id);
    assert Keyed.RemoveKey([draft], DraftId, draft.id) == [];
    assert !Keyed.HasKey(l[1..], DraftId, draft.id) by {
      forall i | 0 <= i < |l[1..]| ensures DraftId(l[1..][i]) != draft.id {
        assert l[1..][i] == l[i + 1];
      }
    }
    Keyed.RemoveAbsentKey(l[1..], DraftId, draft.id);
  }

  /** Saving keeps the ids of the stored list unique. */
  lemma SaveDraftKeepsIdsUnique(stored: Option<seq<SaleDraft>>, draft: SaleDraft)
    requires Keyed.UniqueKeys(GetDrafts(stored), DraftId)
    ensures Keyed.UniqueKeys(SaveDraft(stored, draft), DraftId)
  {
    var r := SaveDraft(stored, draft);
    var others := Others(stored, draft.id);
    Keyed.RemoveKeyUnique(GetDrafts(stored), DraftId, draft.id);
    forall i, j | 0 <= i < j < |r| ensures r[i].id != r[j].id {
      if i > 0 {
        assert r[i] == others[i - 1] && r[j] == others[j - 1];
      }
    }
  }

  /** Saving a draft whose id is already stored keeps the list length: the old entry gives way to the new one. */
  lemma SaveExistingKeepsLength(stored: Option<seq<SaleDraft>>, draft: SaleDraft)
    requires Keyed.UniqueKeys(GetDrafts(stored), DraftId)
    requires |GetDrafts(stored)| <= MaxDrafts
    requires Keyed.HasKey(GetDrafts(stored), DraftId, draft.id)
    ensures |SaveDraft(stored, draft)| == |GetDrafts(stored)|
    ensures SaveDraft(stored, draft)[0] == draft
  {
    Keyed.RemoveKeyPresentLength(GetDrafts(stored), DraftId, draft.id);
  }

  /** Starting from an empty store, four drafts with distinct ids leave the three most recent, newest first. */
  lemma FourDraftsKeepThreeMostRecent(d1: SaleDraft, d2: SaleDraft, d3: SaleDraft, d4: SaleDraft)
    requires d1.id != d2.id && d1.id != d3.id && d1.id != d4.id
    requires d2.id != d3.id && d2.id != d4.id && d3.id != d4.id
    ensures var s1 := SaveDraft(None, d1);
      var s2 := SaveDraft(Some(s1), d2);
      var s3 := SaveDraft(Some(s2), d3);
      SaveDraft(Some(s3), d4) == [d4, d3, d2]
  {
    var s1 := SaveDraft(None, d1);
    assert s1 == [d1];
    Keyed.RemoveAbsentKey(s1, DraftId, d2.id);
    assert Others(Some(s1), d2.id) == [d1];
    var s2 := SaveDraft(Some(s1), d2);
    assert s2 == [d2, d1];
    Keyed.RemoveAbsentKey(s2, DraftId, d3.id);
    assert Others(Some(s2), d3.id) == [d2, d1];
    var s3 := SaveDraft(Some(s2), d3);
    assert s3 == [d3, d2, d1];
    Keyed.RemoveAbsentKey(s3, DraftId, d4.id);
    assert Others(Some(s3), d4.id) == [d3, d2, d1];
  }

  /** The list written back when the draft with id `id` is deleted. */
  function DeleteDraft(stored: Option<seq<SaleDraft>>, id: string): (r: seq<SaleDraft>)
    ensures !Keyed.HasKey(r, DraftId, id)
    ensures forall d :: d in r <==> d in GetDrafts(stored) && d.id != id
  {
    Keyed.RemoveKeyGone(GetDrafts(stored), DraftId, id);
    Keyed.RemoveKey(GetDrafts(stored), DraftId, id)
  }

  /** Deleting an id that is not stored writes back the stored list unchanged. */
  lemma DeleteAbsentIsNoOp(stored: Option<seq<SaleDraft>>, id: string)
    requires !Keyed.HasKey(GetDrafts(stored), DraftId, id)
    ensures DeleteDraft(stored, id) == GetDrafts(stored)
  {
    Keyed.RemoveAbsentKey(GetDrafts(stored), DraftId, id);
  }

  /** Deletion keeps the survivors in their stored order: deleting from a split list deletes from each part. */
  lemma DeleteKeepsOrder(a: seq<SaleDraft>, b: seq<SaleDraft>, id: string)
    ensures DeleteDraft(Some(a + b), id) == DeleteDraft(Some(a), id) + DeleteDraft(Some(b), id)
  {
    Keyed.RemoveKeyAppend(a, b, DraftId, id);
  }

  /** Deleting a draft that was just saved leaves the older drafts that survived the save. */
  lemma DeleteAfterSave(stored: Option<seq<SaleDraft>>, draft: SaleDraft)
    ensures var r := SaveDraft(stored, draft); DeleteDraft(Some(r), draft.id) == r[1..]
  {
    var l := SaveDraft(stored, draft);
    assert l == [draft] + l[1..];
    Keyed.RemoveKeyAppend([draft], l[1..], DraftId, draft.id);
    assert !Keyed.HasKey(l[1..], DraftId, draft.id) by {
      forall i | 0 <= i < |l[1..]| ensures DraftId(l[1..][i]) != draft.id {
        assert l[1..][i] == l[i + 1];
      }
    }
    Keyed.RemoveAbsentKey(l[1..], DraftId, draft.id);
  }
}

=== FILE: edit_inventory.dfy ===
/**
 * The inventory edit dialog: the price, stock and barcode inputs, their
 * validation, and the row handed back on save.
 */
module EditInventory {
  import opened Wrappers
  import Text
  import Inventory

  /** The dialog's three inputs. */
  datatype EditForm = EditForm(precio: real, stock: int, codigoBarras: string)

  datatype FormField = PrecioError | StockError | CodigoBarrasError

  /** Opening the dialog on a row copies its price, stock and barcode. */
  function LoadForm(item: Inventory.InventoryItem): (r: EditForm)
    ensures r.precio == item.precio && r.stock == item.stock && r.codigoBarras == item.codVarBar
  {
    EditForm(item.precio, item.stock, item.codVarBar)
  }

  /** `parseFloat(text) || 0` for the price input. */
  function PrecioTyped(f: EditForm, parsed: Option<real>): (r: EditForm)
    ensures r.precio == parsed.GetOr(0.0) && r.stock == f.stock && r.codigoBarras == f.codigoBarras
  {
    f.(precio := if parsed.None? then 0.0 else parsed.value)
  }

  /** `parseInt(text) || 0` for the stock input. */
  function StockTyped(f: EditForm, parsed: Option<int>): (r: EditForm)
    ensures r.stock == parsed.GetOr(0) && r.precio == f.precio && r.codigoBarras == f.codigoBarras
  {
    f.(stock := if parsed.None? then 0 else parsed.value)
  }

  /**
   * The inputs that carry an error: price not positive, negative stock, blank
   * barcode.  `!codigoBarras.trim()` is `IsBlank` (see the contract of `Text.Trim`).
   */
  function ValidateForm(f: EditForm): (r: set<FormField>)
    ensures PrecioError in r <==> f.precio <= 0.0
    ensures StockError in r <==> f.stock < 0
    ensures CodigoBarrasError in r <==> Text.IsBlank(f.codigoBarras)
    ensures r == {} <==> f.precio > 0.0 && f.stock >= 0 && !Text.IsBlank(f.codigoBarras)
  {
    var blank := Text.IsBlank(f.codigoBarras);
    var e1: set<FormField> := if f.precio <= 0.0 then {PrecioError} else {};
    var e2: set<FormField> := if f.stock < 0 then {StockError} else {};
    var e3: set<FormField> := if blank then {CodigoBarrasError} else {};
    e1 + e2 + e3
  }

  /**
   * Saving: nothing without a row or with an error; otherwise the row with the
   * form's price, stock and barcode and `updatedAt` set to `now`.
   */
  function HandleSave(item: Option<Inventory.InventoryItem>, f: EditForm, now: string): (r: Option<Inventory.InventoryItem>)
    ensures r.Some? <==> item.Some? && ValidateForm(f) == {}
    ensures r.Some? ==> r.value.precio == f.precio && r.value.stock == f.stock
                        && r.value.codVarBar == f.codigoBarras && r.value.updatedAt == now
    ensures r.Some? ==> r.value.(precio := item.value.precio, stock := item.value.stock,
                                 codVarBar := item.value.codVarBar, updatedAt := item.value.updatedAt) == item.value
  {
    if item.None? || ValidateForm(f) != {} then None
    else Some(item.value.(precio := f.precio, stock := f.stock, codVarBar := f.codigoBarras, updatedAt := now))
  }

  /** A saved row opens again as a form without errors, with the same values. */
  lemma SavedRowReloadsClean(item: Option<Inventory.InventoryItem>, f: EditForm, now: string)
    requires HandleSave(item, f, now).Some?
    ensures LoadForm(HandleSave(item, f, now).value) == f
    ensures ValidateForm(LoadForm(HandleSave(item, f, now).value)) == {}
  {
  }

  /** Saving a valid row without touching the form changes only its update time. */
  lemma SaveUntouched(item: Inventory.InventoryItem, now: string)
    requires ValidateForm(LoadForm(item)) == {}
    ensures HandleSave(Some(item), LoadForm(item), now) == Some(item.(updatedAt := now))
  {
  }

  /** After a successful save the page shows the saved values on every row with that id. */
  lemma SaveReachesPage(inv: seq<Inventory.InventoryItem>, item: Inventory.InventoryItem, f: EditForm, now: string, i: nat)
    requires HandleSave(Some(item), f, now).Some?
    requires i < |inv| && inv[i].id == item.id
    ensures var row := Inventory.HandleSaveEdit(inv, HandleSave(Some(item), f, now).value)[i];
      row.precio == f.precio && row.stock == f.stock && row.codVarBar == f.codigoBarras
  {
  }
}

=== FILE: inventory.dfy ===
/**
 * The inventory page and its edit dialog: paging through the stock list,
 * stock classification and the summary counters, replacing and deleting
 * rows by id, pending inline edits, and the dialog's validation and save.
 */
module Inventory {
  import opened Wrappers
  import Keyed
  import Text

  /** A characteristic value: a single value (already rendered as text) or a list of values. */
  datatype CharValue = Scalar(text: string) | ListValue(items: seq<string>)

  datatype InventoryItem = InventoryItem(
    id: int,
    productoId: int,
    sku: string,
    caracteristicas: seq<(string, CharValue)>,
    stock: int,
    precio: real,
    editable: bool,
    createdAt: string,
    createdBy: string,
    updatedAt: string,
    updatedBy: string,
    nombre: string,
    codVarBar: string,
    link: Option<string>,
    categoria: string,
    subcategoria: string,
    rubro: string,
    temporadaVenta: string)

  function InvId(item: InventoryItem): int {
    item.id
  }

  // ---------------------------------------------------------------- paging

  const ItemsPerPage: nat := 100

  /** `Math.ceil(n / 100)`: the fewest pages of 100 rows that hold `n` rows. */
  function TotalPages(n: nat): (r: nat)
    ensures r * ItemsPerPage >= n
    ensures r > 0 ==> (r - 1) * ItemsPerPage < n
    ensures r == 0 <==> n == 0
  {
    (n + ItemsPerPage - 1) / ItemsPerPage
  }

  /**
   * The rows of page `page` (counted from 1): `inventory.slice(start, start + 100)`
   * with `start = (page - 1) * 100`; a page past the end is empty.
   */
  function CurrentItems(inv: seq<InventoryItem>, page: int): (r: seq<InventoryItem>)
    requires page >= 1
    ensures |r| <= ItemsPerPage
    ensures (page - 1) * ItemsPerPage >= |inv| ==> r == []
    ensures (page - 1) * ItemsPerPage < |inv| ==>
      |r| == if |inv| - (page - 1) * ItemsPerPage < ItemsPerPage then |inv| - (page - 1) * ItemsPerPage else ItemsPerPage
    ensures forall i :: 0 <= i < |r| ==> r[i] == inv[(page - 1) * ItemsPerPage + i]
  {
    var start := (page - 1) * ItemsPerPage;
    var end := start + ItemsPerPage;
    if start >= |inv| then [] else inv[start .. if end < |inv| then end else |inv|]
  }

  /** Every row sits on page `k / 100 + 1`, at position `k % 100`, and that page exists. */
  lemma ItemOnItsPage(inv: seq<InventoryItem>, k: nat)
    requires k < |inv|
    ensures 1 <= k / ItemsPerPage + 1 <= TotalPages(|inv|)
    ensures var page := CurrentItems(inv, k / ItemsPerPage + 1);
      k % ItemsPerPage < |page| && page[k % ItemsPerPage] == inv[k]
  {
    assert (k / ItemsPerPage) * ItemsPerPage + k % ItemsPerPage == k;
  }

  /** A page has rows exactly when it is one of the first `TotalPages` pages. */
  lemma PageNonEmptyIff(inv: seq<InventoryItem>, page: int)
    requires page >= 1
    ensures CurrentItems(inv, page) != [] <==> page <= TotalPages(|inv|)
  {
  }

  /** "Anterior": one page back, never below page 1. */
  function PrevPage(page: int): (r: int)
    ensures r >= 1
    ensures page > 1 ==> r == page - 1
  {
    if page - 1 > 1 then page - 1 else 1
  }

  /** "Siguiente": one page forward, never past the last page. */
  function NextPage(page: int, totalPages: int): (r: int)
    ensures r <= totalPages
    ensures page < totalPages ==> r == page + 1
  {
    if page + 1 < totalPages then page + 1 else totalPages
  }

  /** Paging from a page in range stays in range, and back undoes forward. */
  lemma PagingStaysInRange(page: int, totalPages: int)
    requires 1 <= page <= totalPages
    ensures 1 <= PrevPage(page) <= totalPages && 1 <= NextPage(page, totalPages) <= totalPages
    ensures page < totalPages ==> PrevPage(NextPage(page, totalPages)) == page
    ensures page == 1 ==> PrevPage(page) == page
    ensures page == totalPages ==> NextPage(page, totalPages) == page
  {
  }

  // ---------------------------------------------------------------- stock

  datatype StockBadge = SinStock | StockBajo | EnStock

  /** The badge of a stock level: none at 0, low up to 10, in stock above. */
  function GetStockBadge(stock: int): (r: StockBadge)
    ensures r == SinStock <==> stock == 0
    ensures r == StockBajo <==> stock != 0 && stock <= 10
    ensures r == EnStock <==> stock > 10
  {
    if stock == 0 then SinStock else if stock <= 10 then StockBajo else EnStock
  }

  /** The predicates behind the three summary counters. */
  function CountedInStock(item: InventoryItem): bool { item.stock > 10 }
  function CountedLow(item: InventoryItem): bool { item.stock > 0 && item.stock <= 10 }
  function CountedOut(item: InventoryItem): bool { item.stock == 0 }

  datatype Summary = Summary(total: nat, inStock: nat, low: nat, out: nat)

  /** The four cards above the table. */
  function SummaryOf(inv: seq<InventoryItem>): (r: Summary)
    ensures r.total == |inv|
    ensures r.inStock <= |inv| && r.low <= |inv| && r.out <= |inv|
  {
    Summary(|inv|, Keyed.CountWhere(inv, CountedInStock), Keyed.CountWhere(inv, CountedLow),
            Keyed.CountWhere(inv, CountedOut))
  }

  /** On a non-negative stock the counters classify a row exactly as its badge does. */
  lemma CountersAgreeWithBadge(item: InventoryItem)
    requires item.stock >= 0
    ensures CountedInStock(item) <==> GetStockBadge(item.stock) == EnStock
    ensures CountedLow(item) <==> GetStockBadge(item.stock) == StockBajo
    ensures CountedOut(item) <==> GetStockBadge(item.stock) == SinStock
  {
  }

  /** With no negative stock, the three counters add up to the total. */
  lemma SummaryPartition(inv: seq<InventoryItem>)
    requires forall i :: 0 <= i < |inv| ==> inv[i].stock >= 0
    ensures var s := SummaryOf(inv); s.inStock + s.low + s.out == s.total
  {
    Keyed.CountPartition(inv, CountedInStock, CountedLow, CountedOut);
  }

  /**
   * A row with negative stock carries the "Stock Bajo" badge but no counter
   * counts it, so the counters fall short of the total.
   */
  lemma NegativeStockUncounted(inv: seq<InventoryItem>, k: nat)
    requires k < |inv| && inv[k].stock < 0
    ensures GetStockBadge(inv[k].stock) == StockBajo
    ensures var s := SummaryOf(inv); s.inStock + s.low + s.out < s.total
  {
    Keyed.CountMissesOne(inv, CountedInStock, CountedLow, CountedOut, k);
  }

  // ---------------------------------------------------------------- rows

  /** An edited row replaces every row with its id; the others stay where they were. */
  function HandleSaveEdit(inv: seq<InventoryItem>, updated: InventoryItem): (r: seq<InventoryItem>)
    ensures |r| == |inv|
    ensures forall i :: 0 <= i < |inv| && inv[i].id == updated.id ==> r[i] == updated
    ensures forall i :: 0 <= i < |inv| && inv[i].id != updated.id ==> r[i] == inv[i]
  {
    Keyed.ReplaceKey(inv, InvId, updated)
  }

  /** Saving keeps ids unique, and saving a row whose id is not listed changes nothing. */
  lemma SaveEditKeepsIds(inv: seq<InventoryItem>, updated: InventoryItem)
    ensures Keyed.UniqueKeys(inv, InvId) ==> Keyed.UniqueKeys(HandleSaveEdit(inv, updated), InvId)
    ensures !Keyed.HasKey(inv, InvId, updated.id) ==> HandleSaveEdit(inv, updated) == inv
  {
    if Keyed.UniqueKeys(inv, InvId) {
      Keyed.ReplaceKeyUnique(inv, InvId, updated);
    }
    if !Keyed.HasKey(inv, InvId, updated.id) {
      Keyed.ReplaceAbsentKey(inv, InvId, updated);
    }
  }

  /** Deleting, once confirmed, drops every row with the id and nothing else. */
  function HandleDelete(inv: seq<InventoryItem>, id: int, confirmed: bool): (r: seq<InventoryItem>)
    ensures !confirmed ==> r == inv
    ensures confirmed ==> !Keyed.HasKey(r, InvId, id)
    ensures forall x :: x in r ==> x in inv
    ensures confirmed ==> forall x :: x in inv && x.id != id ==> x in r
  {
    if confirmed then
      var r := Keyed.RemoveKey(inv, InvId, id);
      Keyed.RemoveKeyGone(inv, InvId, id);
      r
    else inv
  }

  /** Deletion keeps the order of the remaining rows: it distributes over concatenation. */
  lemma DeleteKeepsOrder(a: seq<InventoryItem>, b: seq<InventoryItem>, id: int)
    ensures HandleDelete(a + b, id, true) == HandleDelete(a, id, true) + HandleDelete(b, id, true)
  {
    Keyed.RemoveKeyAppend(a, b, InvId, id);
  }

  /** Deleting a listed id from a list with unique ids removes exactly one row. */
  lemma DeleteRemovesOneRow(inv: seq<InventoryItem>, id: int)
    requires Keyed.UniqueKeys(inv, InvId) && Keyed.HasKey(inv, InvId, id)
    ensures |HandleDelete(inv, id, true)| == |inv| - 1
  {
    Keyed.RemoveKeyPresentLength(inv, InvId, id);
  }

  // ---------------------------------------------------------------- inline edits

  datatype InlineField = StockField | PrecioField | LinkField

  /** A typed inline value: `Number(text)` (`None` for `NaN`) or the raw text of the link. */
  datatype FieldValue = NumberValue(n: Option<real>) | TextValue(text: string)

  /** Per row id, the fields typed into the table and not yet sent. */
  type PendingEdits = map<int, map<InlineField, FieldValue>>

  /** Records one typed field for one row. */
  function HandleInlineChange(edits: PendingEdits, id: int, field: InlineField, value: FieldValue): (r: PendingEdits)
    ensures id in r && field in r[id] && r[id][field] == value
    ensures forall f :: f in r[id] && f != field ==> id in edits && f in edits[id] && r[id][f] == edits[id][f]
    ensures id in edits ==> forall f :: f in edits[id] ==> f in r[id]
    ensures id in edits ==> forall f :: f in edits[id] && f != field ==> r[id][f] == edits[id][f]
    ensures forall j :: j != id ==> (j in r <==> j in edits)
    ensures forall j :: j != id && j in edits ==> r[j] == edits[j]
  {
    var row := if id in edits then edits[id] else map[];
    edits[id := row[field := value]]
  }

  /** The later of two changes to the same field wins. */
  lemma LastInlineChangeWins(edits: PendingEdits, id: int, field: InlineField, v1: FieldValue, v2: FieldValue)
    ensures HandleInlineChange(HandleInlineChange(edits, id, field, v1), id, field, v2)
         == HandleInlineChange(edits, id, field, v2)
  {
    var row := if id in edits then edits[id] else map[];
    assert row[field := v1][field := v2] == row[field := v2];
  }

  /** Changes to different fields or different rows can be made in either order. */
  lemma InlineChangesCommute(edits: PendingEdits, id1: int, f1: InlineField, v1: FieldValue,
                             id2: int, f2: InlineField, v2: FieldValue)
    requires id1 != id2 || f1 != f2
    ensures HandleInlineChange(HandleInlineChange(edits, id1, f1, v1), id2, f2, v2)
         == HandleInlineChange(HandleInlineChange(edits, id2, f2, v2), id1, f1, v1)
  {
    if id1 == id2 {
      var row := if id1 in edits then edits[id1] else map[];
      assert row[f1 := v1][f2 := v2] == row[f2 := v2][f1 := v1];
    }
  }

  // ---------------------------------------------------------------- characteristics

  function ValueText(v: CharValue): string {
    match v
    case Scalar(t) => t
    case ListValue(items) => Text.Join(items, ", ")
  }

  function EntryText(e: (string, CharValue)): string {
    e.0 + ": " + ValueText(e.1)
  }

  /** The characteristics as `key: value` entries separated by ` | `, list values joined by `, `. */
  function FormatCharacteristics(c: seq<(string, CharValue)>): (r: string)
    ensures |c| == 0 ==> r == ""
    ensures |c| == 1 ==> r == c[0].0 + ": " + ValueText(c[0].1)
  {
    Text.Join(seq(|c|, i requires 0 <= i < |c| => EntryText(c[i])), " | ")
  }

  /** Formatting two non-empty groups of entries puts one ` | ` between them. */
  lemma FormatAppend(a: seq<(string, CharValue)>, b: seq<(string, CharValue)>)
    requires |a| > 0 && |b| > 0
    ensures FormatCharacteristics(a + b) == FormatCharacteristics(a) + " | " + FormatCharacteristics(b)
  {
    var ea := seq(|a|, i requires 0 <= i < |a| => EntryText(a[i]));
    var eb := seq(|b|, i requires 0 <= i < |b| => EntryText(b[i]));
    var c := a + b;
    assert seq(|c|, i requires 0 <= i < |c| => EntryText(c[i])) == ea + eb;
    Text.JoinAppend(ea, eb, " | ");
  }
}

=== FILE: keyed.dfy ===
/**
 * Generic operations on sequences of records identified by a key: the
 * `findIndex`, `filter`, `map` and `reduce` patterns the screens apply to
 * carts, drafts, inventories and payment selections.  Every operation takes
 * the key as a named function so that call sites agree on it.
 */
module Keyed {

  /** No two elements share a key. */
  ghost predicate UniqueKeys<T, K>(s: seq<T>, key: T -> K) {
    forall i, j :: 0 <= i < j < |s| ==> key(s[i]) != key(s[j])
  }

  /** Some element has key `k`. */
  ghost predicate HasKey<T, K>(s: seq<T>, key: T -> K, k: K) {
    exists i :: 0 <= i < |s| && key(s[i]) == k
  }

  /** Index of the first element whose key is `k`, or -1 when there is none. */
  function FindIndex<T, K(==)>(s: seq<T>, key: T -> K, k: K): (r: int)
    ensures -1 <= r < |s|
    ensures r == -1 <==> !HasKey(s, key, k)
    ensures r >= 0 ==> key(s[r]) == k
    ensures r >= 0 ==> forall i :: 0 <= i < r ==> key(s[i]) != k
  {
    if |s| == 0 then -1
    else if key(s[0]) == k then 0
    else
      var r := FindIndex(s[1..], key, k);
      assert forall i :: 0 < i < |s| ==> s[i] == s[1..][i - 1];
      if r == -1 then -1 else r + 1
  }

  /** The elements whose key differs from `k`, in their original order. */
  function RemoveKey<T, K(==)>(s: seq<T>, key: T -> K, k: K): (r: seq<T>)
    ensures |r| <= |s|
    ensures forall x :: x in r ==> x in s && key(x) != k
    ensures forall x :: x in s && key(x) != k ==> x in r
  {
    if |s| == 0 then []
    else if key(s[0]) == k then RemoveKey(s[1..], key, k)
    else [s[0]] + RemoveKey(s[1..], key, k)
  }

  /** Removing a key distributes over concatenation, so the survivors keep their relative order. */
  lemma {:induction false} RemoveKeyAppend<T, K>(a: seq<T>, b: seq<T>, key: T -> K, k: K)
    ensures RemoveKey(a + b, key, k) == RemoveKey(a, key, k) + RemoveKey(b, key, k)
  {
    if |a| == 0 {
      assert a + b == b;
    } else {
      assert (a + b)[1..] == a[1..] + b;
      RemoveKeyAppend(a[1..], b, key, k);
    }
  }

  /** Removing a key that no element carries changes nothing. */
  lemma {:induction false} RemoveAbsentKey<T, K>(s: seq<T>, key: T -> K, k: K)
    requires !HasKey(s, key, k)
    ensures RemoveKey(s, key, k) == s
  {
    if |s| > 0 {
      assert key(s[0]) != k;
      assert !HasKey(s[1..], key, k) by {
        forall i | 0 <= i < |s[1..]| ensures key(s[1..][i]) != k {
          assert s[1..][i] == s[i + 1];
        }
      }
      RemoveAbsentKey(s[1..], key, k);
    }
  }

  /** The key `k` does not occur after removal. */
  lemma RemoveKeyGone<T, K>(s: seq<T>, key: T -> K, k: K)
    ensures !HasKey(RemoveKey(s, key, k), key, k)
  {
    var r := RemoveKey(s, key, k);
    forall i | 0 <= i < |r| ensures key(r[i]) != k {
      assert r[i] in r;
    }
  }

  /** Removal keeps keys unique. */
  lemma {:induction false} RemoveKeyUnique<T, K>(s: seq<T>, key: T -> K, k: K)
    requires UniqueKeys(s, key)
    ensures UniqueKeys(RemoveKey(s, key, k), key)
  {
    if |s| > 0 {
      var rest := RemoveKey(s[1..], key, k);
      assert UniqueKeys(s[1..], key) by {
        forall i, j | 0 <= i < j < |s[1..]| ensures key(s[1..][i]) != key(s[1..][j]) {
          assert s[1..][i] == s[i + 1] && s[1..][j] == s[j + 1];
        }
      }
      RemoveKeyUnique(s[1..], key, k);
      if key(s[0]) != k {
        forall x | x in rest ensures key(x) != key(s[0]) {
          var j :| 1 <= j < |s| && s[j] == x by {
            assert x in s[1..];
            var j' :| 0 <= j' < |s[1..]| && s[1..][j'] == x;
            assert s[j' + 1] == x;
          }
        }
        var r := [s[0]] + rest;
        forall i, j | 0 <= i < j < |r| ensures key(r[i]) != key(r[j]) {
          if i == 0 {
            assert r[j] == rest[j - 1];
            assert r[j] in rest;
          } else {
            assert r[i] == rest[i - 1] && r[j] == rest[j - 1];
          }
        }
      }
    }
  }

  /** With unique keys, removing a key that is present drops exactly one element. */
  lemma {:induction false} RemoveKeyPresentLength<T, K>(s: seq<T>, key: T -> K, k: K)
    requires UniqueKeys(s, key) && HasKey(s, key, k)
    ensures |RemoveKey(s, key, k)| == |s| - 1
  {
    assert |s| > 0;
    assert UniqueKeys(s[1..], key) by {
      forall i, j | 0 <= i < j < |s[1..]| ensures key(s[1..][i]) != key(s[1..][j]) {
        assert s[1..][i] == s[i + 1] && s[1..][j] == s[j + 1];
      }
    }
    if key(s[0]) == k {
      assert !HasKey(s[1..], key, k) by {
        forall i | 0 <= i < |s[1..]| ensures key(s[1..][i]) != k {
          assert s[1..][i] == s[i + 1];
        }
      }
      RemoveAbsentKey(s[1..], key, k);
    } else {
      var i :| 0 <= i < |s| && key(s[i]) == k;
      assert s[1..][i - 1] == s[i];
      RemoveKeyPresentLength(s[1..], key, k);
    }
  }

  /** Each element whose key equals `x`'s key is replaced by `x`; the others are kept. */
  function ReplaceKey<T, K(==)>(s: seq<T>, key: T -> K, x: T): (r: seq<T>)
    ensures |r| == |s|
    ensures forall i :: 0 <= i < |s| && key(s[i]) == key(x) ==> r[i] == x
    ensures forall i :: 0 <= i < |s| && key(s[i]) != key(x) ==> r[i] == s[i]
  {
    if |s| == 0 then []
    else
      var rest := ReplaceKey(s[1..], key, x);
      assert forall i :: 0 < i < |s| ==> s[i] == s[1..][i - 1];
      [if key(s[0]) == key(x) then x else s[0]] + rest
  }

  /** Replacement leaves every element's key where it was. */
  lemma ReplaceKeyKeepsKeys<T, K>(s: seq<T>, key: T -> K, x: T)
    ensures forall i :: 0 <= i < |s| ==> key(ReplaceKey(s, key, x)[i]) == key(s[i])
  {
  }

  /** Replacement keeps keys unique. */
  lemma ReplaceKeyUnique<T, K>(s: seq<T>, key: T -> K, x: T)
    requires UniqueKeys(s, key)
    ensures UniqueKeys(ReplaceKey(s, key, x), key)
  {
    ReplaceKeyKeepsKeys(s, key, x);
  }

  /** Replacing under a key that no element carries changes nothing. */
  lemma ReplaceAbsentKey<T, K>(s: seq<T>, key: T -> K, x: T)
    requires !HasKey(s, key, key(x))
    ensures ReplaceKey(s, key, x) == s
  {
    var r := ReplaceKey(s, key, x);
    forall i | 0 <= i < |s| ensures r[i] == s[i] {
      assert key(s[i]) != key(x);
    }
  }

  /** Left-to-right sum of `f` over the elements (the `reduce((sum, e) => sum + f(e), 0)` pattern). */
  function Sum<T>(s: seq<T>, f: T -> real): real
  {
    if |s| == 0 then 0.0 else Sum(s[..|s| - 1], f) + f(s[|s| - 1])
  }

  /** The sum of a concatenation is the sum of the sums. */
  lemma {:induction false} SumAppend<T>(a: seq<T>, b: seq<T>, f: T -> real)
    ensures Sum(a + b, f) == Sum(a, f) + Sum(b, f)
  {
    if |b| == 0 {
      assert a + b == a;
    } else {
      assert (a + b)[..|a + b| - 1] == a + b[..|b| - 1];
      assert (a + b)[|a + b| - 1] == b[|b| - 1];
      SumAppend(a, b[..|b| - 1], f);
    }
  }

  /** Summing one element gives that element's value. */
  lemma SumSingleton<T>(x: T, f: T -> real)
    ensures Sum([x], f) == f(x)
  {
    assert [x][..0] == [];
  }

  /** Sums of two functions that agree on every element are equal. */
  lemma {:induction false} SumCongruent<T>(s: seq<T>, f: T -> real, g: T -> real)
    requires forall i :: 0 <= i < |s| ==> f(s[i]) == g(s[i])
    ensures Sum(s, f) == Sum(s, g)
  {
    if |s| > 0 {
      var init := s[..|s| - 1];
      assert forall i :: 0 <= i < |init| ==> init[i] == s[i];
      SumCongruent(init, f, g);
    }
  }

  /** Overwriting one element changes the sum by the difference of the two values. */
  lemma SumUpdate<T>(s: seq<T>, i: nat, x: T, f: T -> real)
    requires i < |s|
    ensures Sum(s[i := x], f) == Sum(s, f) - f(s[i]) + f(x)
  {
    assert s == s[..i] + [s[i]] + s[i + 1..];
    assert s[i := x] == s[..i] + [x] + s[i + 1..];
    SumAppend(s[..i] + [s[i]], s[i + 1..], f);
    SumAppend(s[..i], [s[i]], f);
    SumAppend(s[..i] + [x], s[i + 1..], f);
    SumAppend(s[..i], [x], f);
    SumSingleton(s[i], f);
    SumSingleton(x, f);
  }

  /** How many elements satisfy `p` (the `filter(p).length` pattern). */
  function CountWhere<T>(s: seq<T>, p: T -> bool): (r: nat)
    ensures r <= |s|
  {
    if |s| == 0 then 0 else CountWhere(s[1..], p) + (if p(s[0]) then 1 else 0)
  }

  /** Counts of predicates that split every element into exactly one class add up to the length. */
  lemma {:induction false} CountPartition<T>(s: seq<T>, p: T -> bool, q: T -> bool, u: T -> bool)
    requires forall i :: 0 <= i < |s| ==>
      (if p(s[i]) then 1 else 0) + (if q(s[i]) then 1 else 0) + (if u(s[i]) then 1 else 0) == 1
    ensures CountWhere(s, p) + CountWhere(s, q) + CountWhere(s, u) == |s|
  {
    if |s| > 0 {
      assert forall i :: 0 <= i < |s[1..]| ==> s[1..][i] == s[i + 1];
      CountPartition(s[1..], p, q, u);
    }
  }

  /** Three pairwise exclusive counts that all miss the element at `k` add up to less than the length. */
  lemma {:induction false} CountMissesOne<T>(s: seq<T>, p: T -> bool, q: T -> bool, u: T -> bool, k: nat)
    requires forall i :: 0 <= i < |s| ==>
      (if p(s[i]) then 1 else 0) + (if q(s[i]) then 1 else 0) + (if u(s[i]) then 1 else 0) <= 1
    requires k < |s| && !p(s[k]) && !q(s[k]) && !u(s[k])
    ensures CountWhere(s, p) + CountWhere(s, q) + CountWhere(s, u) < |s|
  {
    assert forall i :: 0 <= i < |s[1..]| ==> s[1..][i] == s[i + 1];
    if k == 0 {
      CountExclusiveBound(s[1..], p, q, u);
    } else {
      CountMissesOne(s[1..], p, q, u, k - 1);
    }
  }

  /** Three pairwise exclusive counts add up to at most the length. */
  lemma {:induction false} CountExclusiveBound<T>(s: seq<T>, p: T -> bool, q: T -> bool, u: T -> bool)
    requires forall i :: 0 <= i < |s| ==>
      (if p(s[i]) then 1 else 0) + (if q(s[i]) then 1 else 0) + (if u(s[i]) then 1 else 0) <= 1
    ensures CountWhere(s, p) + CountWhere(s, q) + CountWhere(s, u) <= |s|
  {
    if |s| > 0 {
      assert forall i :: 0 <= i < |s[1..]| ==> s[1..][i] == s[i + 1];
      CountExclusiveBound(s[1..], p, q, u);
    }
  }
}

=== FILE: mappers.dfy ===
/**
 * Conversion of a sale fetched from the backend (`VentaRPC`) into the shapes
 * the sale screen works with: cart lines, payments and a customer.
 */
module Mappers {
  import opened Wrappers
  import opened Types
  import Text
  import Cart
  import NewSale

  datatype DetalleRPC = DetalleRPC(
    sku: string,
    nombre: string,
    codigoBarras: string,
    cantidad: int,
    precioUnitario: real)

  datatype PagoRPC = PagoRPC(metodo: PaymentMethod, monto: real)

  /** A stored sale as the backend returns it; `pagos` may be absent. */
  datatype VentaRPC = VentaRPC(
    id: int,
    clienteId: int,
    clienteNombre: string,
    clienteApellido: string,
    origen: SaleOrigin,
    tipoConsumidor: ConsumerType,
    estado: string,
    total: real,
    observaciones: string,
    createdAt: string,
    tipoIva: string,
    detalles: seq<DetalleRPC>,
    pagos: Option<seq<PagoRPC>>)

  datatype Mapped = Mapped(
    items: seq<CartItem>,
    payments: seq<PaymentDetail>,
    customer: Customer,
    origen: SaleOrigin,
    consumerType: ConsumerType,
    estado: string,
    tipoIva: string)

  /** A fetched line becomes a fixed-price cart line keyed by its SKU. */
  function ItemOf(d: DetalleRPC): (r: CartItem)
    ensures r.id == d.sku && r.sku == d.sku && !r.editable
    ensures r.quantity == d.cantidad && r.price == d.precioUnitario
    ensures Consistent(r)
  {
    CartItem(d.sku, d.sku, d.codigoBarras, d.nombre, d.precioUnitario, false, d.cantidad,
             d.cantidad as real * d.precioUnitario)
  }

  function PaymentOf(p: PagoRPC): PaymentDetail {
    PaymentDetail(p.metodo, p.monto)
  }

  /** The customer recorded on a fetched sale: a natural person with no document. */
  function CustomerOf(v: VentaRPC): (r: Customer)
    ensures r.id == Text.IntToString(v.clienteId) && r.kind == Natural && r.document == ""
    ensures r.name == v.clienteNombre && r.lastName == Some(v.clienteApellido)
  {
    Customer(Text.IntToString(v.clienteId), Natural, v.clienteNombre, Some(v.clienteApellido), "",
             None, None, None, None)
  }

  function MapVentaRPC(v: VentaRPC): (r: Mapped)
    ensures |r.items| == |v.detalles|
    ensures forall i :: 0 <= i < |v.detalles| ==>
      r.items[i].sku == v.detalles[i].sku && r.items[i].name == v.detalles[i].nombre
      && r.items[i].codigoBarras == v.detalles[i].codigoBarras
      && r.items[i].quantity == v.detalles[i].cantidad && r.items[i].price == v.detalles[i].precioUnitario
      && r.items[i].id == v.detalles[i].sku && !r.items[i].editable
    ensures Cart.AllConsistent(r.items)
    ensures v.pagos.None? ==> r.payments == []
    ensures v.pagos.Some? ==> |r.payments| == |v.pagos.value|
    ensures v.pagos.Some? ==> forall i :: 0 <= i < |v.pagos.value| ==>
      r.payments[i].paymentMethod == v.pagos.value[i].metodo
      && r.payments[i].amount == v.pagos.value[i].monto
    ensures r.customer == CustomerOf(v)
    ensures r.origen == v.origen && r.consumerType == v.tipoConsumidor
    ensures r.estado == v.estado && r.tipoIva == v.tipoIva
  {
    var pagos := v.pagos.GetOr([]);
    Mapped(
      seq(|v.detalles|, i requires 0 <= i < |v.detalles| => ItemOf(v.detalles[i])),
      seq(|pagos|, i requires 0 <= i < |pagos| => PaymentOf(pagos[i])),
      CustomerOf(v),
      v.origen,
      v.tipoConsumidor,
      v.estado,
      v.tipoIva)
  }

  /** The id written for a fetched sale's customer reads back as the same client id. */
  lemma CustomerIdRoundTrip(v: VentaRPC)
    ensures Text.NumberOf(MapVentaRPC(v).customer.id) == Some(v.clienteId)
  {
    Text.NumberOfIntToString(v.clienteId);
  }

  /** A session holding the fetched sale: its lines, client, payments and classification; the rest of `s` is kept. */
  function SessionOf(v: VentaRPC, s: NewSale.Session): (r: NewSale.Session)
    ensures r.cart == MapVentaRPC(v).items && r.customer == Some(CustomerOf(v))
    ensures r.payments == MapVentaRPC(v).payments
    ensures r.origin == v.origen && r.consumer == v.tipoConsumidor && r.taxType == v.tipoIva
    ensures r.observations == s.observations && r.resetKey == s.resetKey && r.discount == s.discount
  {
    var m := MapVentaRPC(v);
    s.(cart := m.items, customer := Some(m.customer), payments := m.payments,
       origin := m.origen, consumer := m.consumerType, taxType := m.tipoIva)
  }

  /**
   * Registering a fetched sale again sends back its lines, its payments, its
   * classification and its client.
   */
  lemma RegisterFetchedSale(v: VentaRPC, s: NewSale.Session, userId: Option<string>)
    ensures var p := NewSale.SaleParams(SessionOf(v, s), userId);
      && p.clienteId == Some(v.clienteId)
      && |p.detalles| == |v.detalles|
      && (forall i :: 0 <= i < |v.detalles| ==>
            p.detalles[i] == DetalleVenta(v.detalles[i].sku, v.detalles[i].cantidad, v.detalles[i].precioUnitario))
      && |p.pagos| == |v.pagos.GetOr([])|
      && (forall i :: 0 <= i < |p.pagos| ==>
            ParsePaymentMethod(p.pagos[i].metodo) == Some(v.pagos.value[i].metodo)
            && p.pagos[i].monto == v.pagos.value[i].monto)
      && ParseSaleOrigin(p.origen) == Some(v.origen)
      && ParseConsumerType(p.tipoConsumidor) == Some(v.tipoConsumidor)
      && p.tipoIva == v.tipoIva
  {
    CustomerIdRoundTrip(v);
  }
}

=== FILE: payments.dfy ===
/**
 * The payment split tracker: which of the three payment methods are in use,
 * in the order they were switched on, and the amount entered for each.
 */
module Payments {
  import opened Types
  import Keyed

  /** The amount held for each payment method. */
  datatype Amounts = Amounts(efectivo: real, tarjeta: real, transferencia: real)

  function AmountOf(a: Amounts, m: PaymentMethod): real {
    match m
    case Efectivo => a.efectivo
    case Tarjeta => a.tarjeta
    case Transferencia => a.transferencia
  }

  /** `{ ...a, [m]: v }`: sets one method's amount. */
  function WithAmount(a: Amounts, m: PaymentMethod, v: real): (r: Amounts)
    ensures AmountOf(r, m) == v
    ensures forall n :: n != m ==> AmountOf(r, n) == AmountOf(a, n)
  {
    match m
    case Efectivo => a.(efectivo := v)
    case Tarjeta => a.(tarjeta := v)
    case Transferencia => a.(transferencia := v)
  }

  datatype Tracker = Tracker(selected: seq<PaymentMethod>, amounts: Amounts)

  /** No method is selected and every amount is 0. */
  const Initial: Tracker := Tracker([], Amounts(0.0, 0.0, 0.0))

  function MethodKey(m: PaymentMethod): PaymentMethod {
    m
  }

  /** Each method is selected at most once, and a method that is not selected holds 0. */
  ghost predicate Valid(t: Tracker) {
    && Keyed.UniqueKeys(t.selected, MethodKey)
    && forall m :: m !in t.selected ==> AmountOf(t.amounts, m) == 0.0
  }

  /**
   * Switches `m` off (dropping it from the selection and zeroing its amount)
   * or on (appending it; the first method switched on is given the whole total).
   */
  function Toggle(t: Tracker, m: PaymentMethod, total: real): (r: Tracker)
    ensures m in t.selected ==> m !in r.selected && AmountOf(r.amounts, m) == 0.0
    ensures m !in t.selected ==> r.selected == t.selected + [m]
    ensures m !in t.selected && |t.selected| == 0 ==> AmountOf(r.amounts, m) == total
    ensures m !in t.selected && |t.selected| > 0 ==> r.amounts == t.amounts
    ensures forall n :: n != m ==> (n in r.selected <==> n in t.selected)
    ensures forall n :: n != m ==> AmountOf(r.amounts, n) == AmountOf(t.amounts, n)
  {
    if m in t.selected then
      Tracker(Keyed.RemoveKey(t.selected, MethodKey, m), WithAmount(t.amounts, m, 0.0))
    else
      Tracker(t.selected + [m], if |t.selected| == 0 then WithAmount(t.amounts, m, total) else t.amounts)
  }

  /** Sets the amount typed for `m`; nothing else changes. */
  function AmountChange(t: Tracker, m: PaymentMethod, amount: real): (r: Tracker)
    ensures r.selected == t.selected
    ensures AmountOf(r.amounts, m) == amount
    ensures forall n :: n != m ==> AmountOf(r.amounts, n) == AmountOf(t.amounts, n)
  {
    t.(amounts := WithAmount(t.amounts, m, amount))
  }

  function EmitFor(sel: seq<PaymentMethod>, a: Amounts): (r: seq<PaymentDetail>)
    ensures |r| == |sel|
    ensures forall i :: 0 <= i < |sel| ==> r[i].paymentMethod == sel[i] && r[i].amount == AmountOf(a, sel[i])
  {
    seq(|sel|, i requires 0 <= i < |sel| => PaymentDetail(sel[i], AmountOf(a, sel[i])))
  }

  /** The payment list handed to the sale: the selected methods, in selection order, each with its amount. */
  function Emitted(t: Tracker): (r: seq<PaymentDetail>)
    ensures |r| == |t.selected|
    ensures forall i :: 0 <= i < |r| ==> r[i].paymentMethod == t.selected[i]
    ensures forall i :: 0 <= i < |r| ==> r[i].amount == AmountOf(t.amounts, t.selected[i])
  {
    EmitFor(t.selected, t.amounts)
  }

  /** The sum of every method's amount, selected or not. */
  function TotalPaid(t: Tracker): (r: real)
    ensures r == AmountOf(t.amounts, Efectivo) + AmountOf(t.amounts, Tarjeta) + AmountOf(t.amounts, Transferencia)
    ensures Valid(t) && t.selected == [] ==> r == 0.0
  {
    t.amounts.efectivo + t.amounts.tarjeta + t.amounts.transferencia
  }

  /** What is still owed; negative when more than the total was paid. */
  function Remaining(t: Tracker, total: real): (r: real)
    ensures r + TotalPaid(t) == total
    ensures r < 0.0 <==> TotalPaid(t) > total
  {
    total - TotalPaid(t)
  }

  /** The change to hand back, or 0 when nothing was overpaid. */
  function Change(t: Tracker, total: real): (r: real)
    ensures r >= 0.0 && r >= TotalPaid(t) - total
    ensures r > 0.0 <==> TotalPaid(t) > total
  {
    if TotalPaid(t) > total then TotalPaid(t) - total else 0.0
  }

  lemma InitialIsValid()
    ensures Valid(Initial)
    ensures Emitted(Initial) == [] && TotalPaid(Initial) == 0.0
  {
  }

  /** Toggling keeps the tracker valid. */
  lemma ToggleKeepsValid(t: Tracker, m: PaymentMethod, total: real)
    requires Valid(t)
    ensures Valid(Toggle(t, m, total))
  {
    var r := Toggle(t, m, total);
    if m in t.selected {
      Keyed.RemoveKeyUnique(t.selected, MethodKey, m);
    } else {
      forall i, j | 0 <= i < j < |r.selected| ensures r.selected[i] != r.selected[j] {
        if j == |t.selected| {
          assert r.selected[i] == t.selected[i];
        } else {
          assert r.selected[i] == t.selected[i] && r.selected[j] == t.selected[j];
        }
      }
    }
  }

  /** Typing an amount for a selected method keeps the tracker valid. */
  lemma AmountChangeKeepsValid(t: Tracker, m: PaymentMethod, amount: real)
    requires Valid(t) && m in t.selected
    ensures Valid(AmountChange(t, m, amount))
  {
  }

  /** Switching a method on and then off again restores the tracker. */
  lemma ToggleOnOffRestores(t: Tracker, m: PaymentMethod, total: real)
    requires Valid(t) && m !in t.selected
    ensures Toggle(Toggle(t, m, total), m, total) == t
  {
    var on := Toggle(t, m, total);
    Keyed.RemoveKeyAppend(t.selected, [m], MethodKey, m);
    assert !Keyed.HasKey(t.selected, MethodKey, m);
    Keyed.RemoveAbsentKey(t.selected, MethodKey, m);
    assert Keyed.RemoveKey([m], MethodKey, m) == [];
    var off := Toggle(on, m, total);
    assert off.selected == t.selected;
    assert AmountOf(off.amounts, m) == AmountOf(t.amounts, m);
    assert forall n :: AmountOf(off.amounts, n) == AmountOf(t.amounts, n);
    assert off.amounts == Amounts(AmountOf(t.amounts, Efectivo), AmountOf(t.amounts, Tarjeta), AmountOf(t.amounts, Transferencia));
  }

  function Share(sel: seq<PaymentMethod>, a: Amounts, m: PaymentMethod): real {
    if m in sel then AmountOf(a, m) else 0.0
  }

  lemma {:induction false} EmittedSumIsShares(sel: seq<PaymentMethod>, a: Amounts)
    requires Keyed.UniqueKeys(sel, MethodKey)
    ensures Keyed.Sum(EmitFor(sel, a), PaymentAmount)
      == Share(sel, a, Efectivo) + Share(sel, a, Tarjeta) + Share(sel, a, Transferencia)
  {
    if |sel| > 0 {
      var n := |sel| - 1;
      var init := sel[..n];
      var x := sel[n];
      assert Keyed.UniqueKeys(init, MethodKey) by {
        forall i, j | 0 <= i < j < |init| ensures init[i] != init[j] {
          assert init[i] == sel[i] && init[j] == sel[j];
        }
      }
      EmittedSumIsShares(init, a);
      var e := EmitFor(sel, a);
      assert e[..n] == EmitFor(init, a);
      assert Keyed.Sum(e, PaymentAmount) == Keyed.Sum(EmitFor(init, a), PaymentAmount) + AmountOf(a, x);
      assert x !in init;
      assert sel == init + [x];
      ShareStep(init, x, a, Efectivo);
      ShareStep(init, x, a, Tarjeta);
      ShareStep(init, x, a, Transferencia);
    }
  }

  lemma ShareStep(init: seq<PaymentMethod>, x: PaymentMethod, a: Amounts, m: PaymentMethod)
    requires x !in init
    ensures Share(init + [x], a, m) == Share(init, a, m) + (if m == x then AmountOf(a, x) else 0.0)
  {
    assert m in init + [x] <==> m in init || m == x;
  }

  /** In a valid tracker the total paid is the sum of the emitted amounts. */
  lemma TotalPaidIsEmittedSum(t: Tracker)
    requires Valid(t)
    ensures TotalPaid(t) == Keyed.Sum(Emitted(t), PaymentAmount)
  {
    EmittedSumIsShares(t.selected, t.amounts);
  }

  /** Owing and giving change exclude each other; change is exactly the overpayment. */
  lemma RemainingAndChange(t: Tracker, total: real)
    ensures !(Remaining(t, total) > 0.0 && Change(t, total) > 0.0)
    ensures Change(t, total) > 0.0 <==> Remaining(t, total) < 0.0
    ensures Remaining(t, total) == 0.0 <==> TotalPaid(t) == total
    ensures Change(t, total) == if Remaining(t, total) < 0.0 then -Remaining(t, total) else 0.0
  {
  }

  /**
   * Against a total of 242: switching cash on pays it all in cash; switching
   * the card on too adds it at 0, and the amount inputs then shown split the
   * total as 142 in cash and 100 by card, or overpay by 58 with 158 by card.
   */
  lemma CashExamples()
    ensures var t1 := Toggle(Initial, Efectivo, 242.0);
      var t2 := Toggle(t1, Tarjeta, 242.0);
      var t3 := AmountChange(AmountChange(t2, Efectivo, 142.0), Tarjeta, 100.0);
      && Remaining(t1, 242.0) == 0.0 && Emitted(t1) == [PaymentDetail(Efectivo, 242.0)]
      && Emitted(t2) == [PaymentDetail(Efectivo, 242.0), PaymentDetail(Tarjeta, 0.0)]
      && Remaining(t3, 242.0) == 0.0 && Change(t3, 242.0) == 0.0
      && Emitted(t3) == [PaymentDetail(Efectivo, 142.0), PaymentDetail(Tarjeta, 100.0)]
      && Change(AmountChange(t3, Tarjeta, 158.0), 242.0) == 58.0
  {
    var t1 := Toggle(Initial, Efectivo, 242.0);
    assert t1.selected == [Efectivo];
    var t2 := Toggle(t1, Tarjeta, 242.0);
    assert t2.selected == [Efectivo, Tarjeta];
  }
}

=== FILE: product_table.dfy ===
/**
 * The cart table's edit guards: a quantity below 1 or a negative price
 * produces no update; an accepted edit produces the line with its subtotal
 * recomputed, which the sale screen then puts in place by id.
 */
module ProductTable {
  import opened Wrappers
  import opened Types
  import Calculations
  import Cart

  /** The update a quantity edit emits, or `None` when the new quantity is below 1. */
  function HandleQuantityChange(item: CartItem, newQuantity: int): (r: Option<CartItem>)
    ensures r.None? <==> newQuantity < 1
    ensures r.Some? ==> r.value.quantity == newQuantity && r.value.price == item.price && Consistent(r.value)
    ensures r.Some? ==> r.value.(quantity := item.quantity, subtotal := item.subtotal) == item
  {
    if newQuantity < 1 then None
    else Some(Calculations.UpdateCartItemSubtotal(item.(quantity := newQuantity)))
  }

  /** The update a price edit emits, or `None` when the new price is negative. */
  function HandlePriceChange(item: CartItem, newPrice: real): (r: Option<CartItem>)
    ensures r.None? <==> newPrice < 0.0
    ensures r.Some? ==> r.value.price == newPrice && r.value.quantity == item.quantity && Consistent(r.value)
    ensures r.Some? ==> r.value.(price := item.price, subtotal := item.subtotal) == item
  {
    if newPrice < 0.0 then None
    else Some(Calculations.UpdateCartItemSubtotal(item.(price := newPrice)))
  }

  /** The "−" button asks for one unit less, which is refused on a single unit. */
  function DecrementPressed(item: CartItem): (r: Option<CartItem>)
    ensures r.None? <==> item.quantity <= 1
    ensures r.Some? ==> r.value.quantity == item.quantity - 1 && r.value.price == item.price && Consistent(r.value)
  {
    HandleQuantityChange(item, item.quantity - 1)
  }

  /** The "+" button asks for one unit more, which is refused only below zero units. */
  function IncrementPressed(item: CartItem): (r: Option<CartItem>)
    ensures r.None? <==> item.quantity < 0
    ensures r.Some? ==> r.value.quantity == item.quantity + 1 && r.value.price == item.price && Consistent(r.value)
  {
    HandleQuantityChange(item, item.quantity + 1)
  }

  /** `parseInt(text) || 1`: a missing number (`NaN`) or 0 becomes 1. */
  function TypedQuantity(parsed: Option<int>): (r: int)
    ensures parsed.None? ==> r == 1
    ensures parsed.Some? && parsed.value != 0 ==> r == parsed.value
    ensures r != 0
  {
    if parsed.None? || parsed.value == 0 then 1 else parsed.value
  }

  /** `parseFloat(text) || 0`: a missing number (`NaN`) becomes 0. */
  function TypedPrice(parsed: Option<real>): (r: real)
    ensures parsed.None? ==> r == 0.0
    ensures parsed.Some? ==> r == parsed.value
  {
    if parsed.None? then 0.0 else parsed.value
  }

  /** The price cell is an input only on lines whose product allows price overrides; otherwise it shows the price as text. */
  function PriceInputShown(item: CartItem): (r: bool)
    ensures r <==> item.editable
  {
    item.editable
  }

  /** Pressing "−" on a single unit emits nothing; pressing "+" always emits one more unit. */
  lemma StepButtons(item: CartItem)
    ensures item.quantity <= 1 ==> DecrementPressed(item).None?
    ensures item.quantity >= 2 ==> DecrementPressed(item).Some? && DecrementPressed(item).value.quantity == item.quantity - 1
    ensures item.quantity >= 0 ==> IncrementPressed(item).Some? && IncrementPressed(item).value.quantity == item.quantity + 1
  {
  }

  /** Typing in the quantity box is rejected only for a negative number; clearing it gives one unit. */
  lemma TypedQuantityEdits(item: CartItem, parsed: Option<int>)
    ensures HandleQuantityChange(item, TypedQuantity(parsed)).None? <==> parsed.Some? && parsed.value < 0
    ensures parsed.None? ==> HandleQuantityChange(item, TypedQuantity(parsed)).value.quantity == 1
  {
  }

  /** The cart after a quantity edit on one of its lines. */
  function ApplyQuantityChange(cart: seq<CartItem>, item: CartItem, newQuantity: int): (r: seq<CartItem>)
    ensures |r| == |cart|
    ensures newQuantity < 1 ==> r == cart
    ensures newQuantity >= 1 ==> forall j :: 0 <= j < |cart| && cart[j].id == item.id ==>
      r[j].quantity == newQuantity && r[j].price == item.price && Consistent(r[j])
    ensures forall j :: 0 <= j < |cart| && cart[j].id != item.id ==> r[j] == cart[j]
  {
    match HandleQuantityChange(item, newQuantity)
    case None => cart
    case Some(updated) => Cart.UpdateItem(cart, updated)
  }

  /** The cart after a price typed on one of its lines; only a line showing the price input can receive one. */
  function ApplyPriceChange(cart: seq<CartItem>, item: CartItem, newPrice: real): (r: seq<CartItem>)
    ensures |r| == |cart|
    ensures newPrice < 0.0 || !item.editable ==> r == cart
    ensures item.editable && newPrice >= 0.0 ==> forall j :: 0 <= j < |cart| && cart[j].id == item.id ==>
      r[j].price == newPrice && r[j].quantity == item.quantity && Consistent(r[j])
    ensures forall j :: 0 <= j < |cart| && cart[j].id != item.id ==> r[j] == cart[j]
  {
    if !PriceInputShown(item) then cart
    else match HandlePriceChange(item, newPrice)
    case None => cart
    case Some(updated) => Cart.UpdateItem(cart, updated)
  }

  /**
   * The price of a fixed-price line never changes through the table: a price
   * edit on any line of the cart leaves every non-editable line as it was.
   */
  lemma FixedPriceLinesKept(cart: seq<CartItem>, k: nat, p: real)
    requires Cart.IdsUnique(cart) && k < |cart|
    ensures var r := ApplyPriceChange(cart, cart[k], p);
      forall j :: 0 <= j < |cart| && !cart[j].editable ==> r[j] == cart[j]
  {
    var r := ApplyPriceChange(cart, cart[k], p);
    forall j | 0 <= j < |cart| && !cart[j].editable ensures r[j] == cart[j] {
      if cart[k].editable && p >= 0.0 {
        assert j != k;
        assert ItemId(cart[j]) != ItemId(cart[k]);
      }
    }
  }

  /** Edits from the table keep ids unique and lines consistent. */
  lemma EditsKeepCartInvariants(cart: seq<CartItem>, item: CartItem, q: int, p: real)
    requires Cart.IdsUnique(cart) && Cart.AllConsistent(cart)
    ensures Cart.IdsUnique(ApplyQuantityChange(cart, item, q)) && Cart.AllConsistent(ApplyQuantityChange(cart, item, q))
    ensures Cart.IdsUnique(ApplyPriceChange(cart, item, p)) && Cart.AllConsistent(ApplyPriceChange(cart, item, p))
  {
    if q >= 1 {
      Cart.UpdateKeepsInvariants(cart, HandleQuantityChange(item, q).value);
    }
    if p >= 0.0 {
      Cart.UpdateKeepsInvariants(cart, HandlePriceChange(item, p).value);
    }
  }
}

=== FILE: quantity_modal.dfy ===
/**
 * The add-product dialog: a quantity (at least 1) and a unit price (at least
 * 0 once typed), a subtotal preview, and the pair handed back on submit.
 */
module QuantityModal {
  import opened Wrappers
  import opened Types
  import Calculations

  datatype ModalState = ModalState(quantity: int, price: real)

  /** Quantity is at least 1 and price is not negative. */
  predicate Valid(st: ModalState) {
    st.quantity >= 1 && st.price >= 0.0
  }

  /** The dialog opens on one unit at the product's price. */
  function Open(product: Product): (r: ModalState)
    ensures r.quantity == 1 && r.price == product.price
    ensures product.price >= 0.0 ==> Valid(r)
  {
    ModalState(1, product.price)
  }

  /** A different product resets the price to that product's price; the quantity is kept. */
  function ProductChanged(st: ModalState, product: Product): (r: ModalState)
    ensures r.price == product.price && r.quantity == st.quantity
  {
    st.(price := product.price)
  }

  /** `Math.max(1, parseInt(text) || 1)`. */
  function QuantityTyped(st: ModalState, parsed: Option<int>): (r: ModalState)
    ensures r.quantity >= 1 && r.price == st.price
    ensures parsed.None? ==> r.quantity == 1
    ensures parsed.Some? && parsed.value >= 1 ==> r.quantity == parsed.value
    ensures parsed.Some? && parsed.value < 1 ==> r.quantity == 1
  {
    var typed := if parsed.None? || parsed.value == 0 then 1 else parsed.value;
    st.(quantity := if typed < 1 then 1 else typed)
  }

  /** `Math.max(0, parseFloat(text) || 0)`. */
  function PriceTyped(st: ModalState, parsed: Option<real>): (r: ModalState)
    ensures r.price >= 0.0 && r.quantity == st.quantity
    ensures parsed.None? ==> r.price == 0.0
    ensures parsed.Some? && parsed.value >= 0.0 ==> r.price == parsed.value
    ensures parsed.Some? && parsed.value < 0.0 ==> r.price == 0.0
  {
    var typed := if parsed.None? then 0.0 else parsed.value;
    st.(price := if typed < 0.0 then 0.0 else typed)
  }

  /** The subtotal shown under the inputs. */
  function SubtotalPreview(st: ModalState): (r: real)
    ensures Valid(st) ==> r >= 0.0
  {
    st.quantity as real * st.price
  }

  /** The preview is the subtotal the cart line for this quantity and price will carry. */
  lemma PreviewMatchesLineSubtotal(st: ModalState, product: Product)
    ensures var line := CartItem(product.id, product.sku, product.codigoBarras, product.name,
                                  st.price, product.editable, st.quantity, 0.0);
      Calculations.UpdateCartItemSubtotal(line).subtotal == SubtotalPreview(st)
  {
  }

  /** Submitting hands the current quantity and price to the caller unchanged. */
  function Submit(st: ModalState): (r: (int, real))
    ensures r.0 == st.quantity && r.1 == st.price
    ensures Valid(st) ==> r.0 >= 1 && r.1 >= 0.0
  {
    (st.quantity, st.price)
  }

  /** Typing keeps a valid dialog valid. */
  lemma TypingKeepsValid(st: ModalState, q: Option<int>, p: Option<real>)
    requires Valid(st)
    ensures Valid(QuantityTyped(st, q)) && Valid(PriceTyped(st, p))
  {
  }

  /** Reading a named property of a product: `undefined` (`None`) for a name the record does not have. */
  function BoolProperty(product: Product, name: string): Option<bool> {
    if name == "editable" then Some(product.editable) else None
  }

  function Truthy(v: Option<bool>): bool {
    v.Some? && v.value
  }

  /**
   * Whether the price input is shown, as written: the dialog tests
   * `product.isEditable`, a property no product record has, so never.
   */
  function PriceInputShownAsWritten(product: Product): (r: bool)
    ensures !r
  {
    Truthy(BoolProperty(product, "isEditable"))
  }

  /** Whether the price input is shown, as intended: the product's `editable` flag. */
  function PriceInputShown(product: Product): (r: bool)
    ensures r <==> product.editable
  {
    Truthy(BoolProperty(product, "editable"))
  }

  /** As written, an editable product never gets a price input. */
  lemma EditablePriceHiddenAsWritten(product: Product)
    requires product.editable
    ensures !PriceInputShownAsWritten(product)
    ensures PriceInputShown(product)
  {
  }

  /** A price typed into the dialog as written: the input is never shown, so nothing changes. */
  function PriceEditAsWritten(st: ModalState, product: Product, parsed: Option<real>): (r: ModalState)
    ensures r == st
  {
    if PriceInputShownAsWritten(product) then PriceTyped(st, parsed) else st
  }

  /** As written, every product, editable or not, is submitted at its own price. */
  lemma SubmittedPriceAsWritten(product: Product, parsed: Option<real>)
    ensures Submit(PriceEditAsWritten(Open(product), product, parsed)).1 == product.price
    ensures product.editable && parsed == Some(product.price + 1.0) ==>
      Submit(PriceEditAsWritten(Open(product), product, parsed)).1 != Submit(PriceEdit(Open(product), product, parsed)).1
  {
  }

  /** A price typed into the dialog, as intended: applied on an editable product, ignored otherwise. */
  function PriceEdit(st: ModalState, product: Product, parsed: Option<real>): (r: ModalState)
    ensures !product.editable ==> r == st
    ensures product.editable ==> r == PriceTyped(st, parsed)
  {
    if PriceInputShown(product) then PriceTyped(st, parsed) else st
  }

  /** An editable product can be submitted at any non-negative typed price; a fixed-price product at its own price. */
  lemma SubmittedPrice(product: Product, v: real)
    requires v >= 0.0
    ensures product.editable ==> Submit(PriceEdit(Open(product), product, Some(v))).1 == v
    ensures !product.editable ==> Submit(PriceEdit(Open(product), product, Some(v))).1 == product.price
  {
  }
}

=== FILE: sale.dfy ===
/**
 * The new-sale session: cart, customer, payments and classification of the
 * sale being entered, with the derived totals and the guarded transitions
 * (register the sale, save a draft, load a draft, reset).
 */
module NewSale {
  import opened Wrappers
  import opened Types
  import Keyed
  import Text
  import Calculations
  import Cart
  import DraftStore

  datatype Session = Session(
    cart: seq<CartItem>,
    customer: Option<Customer>,
    payments: seq<PaymentDetail>,
    origin: SaleOrigin,
    consumer: ConsumerType,
    observations: string,
    taxType: string,
    resetKey: nat,
    discount: real)

  /** The session when the screen opens. */
  const Initial: Session := Session([], None, [], Puerta, Minorista, "", "sin_iva", 0, 0.0)

  datatype Totals = Totals(subtotal: real, tax: real, total: real)

  /**
   * The totals the screen derives from the cart and the discount.  The tax is
   * computed at the calculator's default rate, which is 0.
   */
  function DeriveTotals(cart: seq<CartItem>, discount: real): (r: Totals)
    ensures r.subtotal == Calculations.CalculateSubtotal(cart)
    ensures r.tax == 0.0
    ensures r.total == r.subtotal - discount
  {
    var subtotal := Calculations.CalculateSubtotal(cart);
    var tax := Calculations.CalculateTax(subtotal);
    Totals(subtotal, tax, Calculations.CalculateTotal(subtotal, discount, tax))
  }

  function Total(s: Session): real {
    DeriveTotals(s.cart, s.discount).total
  }

  /** With consistent lines and no discount, the total is the sum of price times quantity. */
  lemma TotalOfConsistentCart(s: Session)
    requires Cart.AllConsistent(s.cart) && s.discount == 0.0
    ensures Total(s) == Keyed.Sum(s.cart, Calculations.PriceTimesQuantity)
  {
    Calculations.SubtotalOfConsistentCart(s.cart);
  }

  /** The sum of the amounts of a payment list. */
  function PaidSum(payments: seq<PaymentDetail>): real {
    Keyed.Sum(payments, PaymentAmount)
  }

  /** A product added from the dialog goes into the cart; nothing else in the session changes. */
  function HandleAddToCart(s: Session, item: CartItem): (r: Session)
    ensures r.cart == Cart.AddToCart(s.cart, item) && r.(cart := s.cart) == s
  {
    s.(cart := Cart.AddToCart(s.cart, item))
  }

  /** An edited line from the table replaces the line with its id; nothing else in the session changes. */
  function HandleUpdateItem(s: Session, item: CartItem): (r: Session)
    ensures r.cart == Cart.UpdateItem(s.cart, item) && r.(cart := s.cart) == s
  {
    s.(cart := Cart.UpdateItem(s.cart, item))
  }

  /** A line removed from the table leaves the cart; nothing else in the session changes. */
  function HandleRemoveItem(s: Session, id: string): (r: Session)
    ensures r.cart == Cart.RemoveItem(s.cart, id) && r.(cart := s.cart) == s
  {
    s.(cart := Cart.RemoveItem(s.cart, id))
  }

  /** Why a sale was not registered. */
  datatype SaveError = EmptyCart | Underpaid

  function DetailOf(item: CartItem): DetalleVenta {
    DetalleVenta(item.sku, item.quantity, item.price)
  }

  function PagoOf(p: PaymentDetail): PagoVenta {
    PagoVenta(PaymentMethodName(p.paymentMethod), p.amount)
  }

  /** The registration arguments built from the session; the default client is 1. */
  function SaleParams(s: Session, userId: Option<string>): (r: RegistrarVentaParams)
    ensures s.customer.None? ==> r.clienteId == Some(1)
    ensures s.customer.Some? ==> r.clienteId == Text.NumberOf(s.customer.value.id)
    ensures |r.detalles| == |s.cart|
    ensures forall i :: 0 <= i < |s.cart| ==>
      r.detalles[i] == DetalleVenta(s.cart[i].sku, s.cart[i].quantity, s.cart[i].price)
    ensures |r.pagos| == |s.payments|
    ensures forall i :: 0 <= i < |s.payments| ==>
      ParsePaymentMethod(r.pagos[i].metodo) == Some(s.payments[i].paymentMethod)
      && r.pagos[i].monto == s.payments[i].amount
    ensures ParseSaleOrigin(r.origen) == Some(s.origin)
    ensures ParseConsumerType(r.tipoConsumidor) == Some(s.consumer)
    ensures r.tipoIva == s.taxType && r.observaciones == s.observations
    ensures r.userId == userId.GetOr("")
  {
    RegistrarVentaParams(
      if s.customer.Some? then Text.NumberOf(s.customer.value.id) else Some(1),
      SaleOriginName(s.origin),
      ConsumerTypeName(s.consumer),
      s.taxType,
      s.observations,
      seq(|s.cart|, i requires 0 <= i < |s.cart| => DetailOf(s.cart[i])),
      seq(|s.payments|, i requires 0 <= i < |s.payments| => PagoOf(s.payments[i])),
      userId.GetOr(""))
  }

  /**
   * The guards in front of registration: an empty cart is refused first, then
   * payments that do not reach the total; otherwise the payload is built.
   */
  function ValidateSale(s: Session, userId: Option<string>): (r: Result<RegistrarVentaParams, SaveError>)
    ensures r.Success? <==> |s.cart| > 0 && PaidSum(s.payments) >= Total(s)
    ensures |s.cart| == 0 ==> r == Failure(EmptyCart)
    ensures |s.cart| > 0 && PaidSum(s.payments) < Total(s) ==> r == Failure(Underpaid)
  {
    if |s.cart| == 0 then Failure(EmptyCart)
    else if PaidSum(s.payments) < Total(s) then Failure(Underpaid)
    else Success(SaleParams(s, userId))
  }

  /** The session after the save attempt, and the payload sent to the backend (`None`: nothing was sent). */
  datatype SaveOutcome = SaveOutcome(session: Session, sent: Option<RegistrarVentaParams>)

  /**
   * Saving the sale.  `response` is what the registration procedure returns
   * for the payload: the new sale id, or `None` on failure.  A returned id of
   * 0 counts as a failure, as any falsy value does.
   */
  function HandleSaveSale(s: Session, userId: Option<string>, response: Option<int>): (r: SaveOutcome)
    ensures r.sent.None? <==> ValidateSale(s, userId).Failure?
    ensures r.sent.Some? ==> r.sent.value == SaleParams(s, userId)
    ensures r.sent.Some? && response.Some? && response.value != 0 ==> r.session == Reset(s)
    ensures !(r.sent.Some? && response.Some? && response.value != 0) ==> r.session == s
  {
    match ValidateSale(s, userId)
    case Failure(_) => SaveOutcome(s, None)
    case Success(params) =>
      if response.Some? && response.value != 0 then SaveOutcome(Reset(s), Some(params))
      else SaveOutcome(s, Some(params))
  }

  /**
   * Clears the sale: no lines, no customer, no payments, default origin and
   * consumer, no observations, no discount, and a new reset counter.  The tax
   * type is kept.
   */
  function Reset(s: Session): (r: Session)
    ensures r.cart == [] && r.customer.None? && r.payments == []
    ensures r.origin == Initial.origin && r.consumer == Initial.consumer
    ensures r.observations == "" && r.discount == 0.0
    ensures r.resetKey == s.resetKey + 1
    ensures r.taxType == s.taxType
  {
    Initial.(taxType := s.taxType, resetKey := s.resetKey + 1)
  }

  /** Resetting twice differs from resetting once only in the counter. */
  lemma ResetIdempotentButCounter(s: Session)
    ensures Reset(Reset(s)) == Reset(s).(resetKey := s.resetKey + 2)
  {
  }

  /** The draft recorded for the session under the identifier `id`. */
  function Snapshot(s: Session, id: string): SaleDraft {
    SaleDraft(id, s.cart, s.customer, s.payments, s.origin, s.consumer, s.observations, s.taxType)
  }

  /**
   * Saving a draft: refused (`None`, nothing written) on an empty cart;
   * otherwise the list written to the draft store.
   */
  function HandleSaveDraft(s: Session, id: string, stored: Option<seq<SaleDraft>>): (r: Option<seq<SaleDraft>>)
    ensures r.None? <==> |s.cart| == 0
    ensures r.Some? ==> 1 <= |r.value| <= DraftStore.MaxDrafts && r.value[0] == Snapshot(s, id)
    ensures r.Some? ==> r.value[0].items == s.cart && r.value[0].id == id
    ensures r.Some? ==> r.value == DraftStore.SaveDraft(stored, Snapshot(s, id))
  {
    if |s.cart| == 0 then None else Some(DraftStore.SaveDraft(stored, Snapshot(s, id)))
  }

  /** Loads a draft: every field it records replaces the session's; the counter and discount are kept. */
  function HandleLoadDraft(s: Session, d: SaleDraft): (r: Session)
    ensures r.cart == d.items && r.customer == d.customer && r.payments == d.payments
    ensures r.origin == d.origin && r.consumer == d.consumer
    ensures r.observations == d.observations && r.taxType == d.taxType
    ensures r.resetKey == s.resetKey && r.discount == s.discount
  {
    s.(cart := d.items, customer := d.customer, payments := d.payments, origin := d.origin,
       consumer := d.consumer, observations := d.observations, taxType := d.taxType)
  }

  /** Loading the draft of a session gives back that session. */
  lemma LoadSnapshotRestores(s: Session, other: Session, id: string)
    ensures HandleLoadDraft(other, Snapshot(s, id)) == s.(resetKey := other.resetKey, discount := other.discount)
    ensures HandleLoadDraft(s, Snapshot(s, id)) == s
  {
  }

  /** After a reset, both the sale save and the draft save are refused and nothing is sent or written. */
  lemma ResetRefusesEverySave(s: Session, userId: Option<string>, response: Option<int>, id: string,
                              stored: Option<seq<SaleDraft>>)
    ensures ValidateSale(Reset(s), userId) == Failure(EmptyCart)
    ensures HandleSaveSale(Reset(s), userId, response).sent.None?
    ensures HandleSaveDraft(Reset(s), id, stored).None?
  {
  }

  /**
   * Two units at 100: the subtotal and total are 200 and the tax 0; paying 242
   * in cash passes the payment guard, paying 199 does not.
   */
  lemma TwoUnitsExample(userId: Option<string>)
    ensures var item := CartItem("A", "A", "", "A", 100.0, false, 2, 200.0);
      var s := HandleAddToCart(Initial, item);
      && DeriveTotals(s.cart, s.discount) == Totals(200.0, 0.0, 200.0)
      && ValidateSale(s.(payments := [PaymentDetail(Efectivo, 242.0)]), userId).Success?
      && ValidateSale(s.(payments := [PaymentDetail(Efectivo, 199.0)]), userId) == Failure(Underpaid)
  {
    var item := CartItem("A", "A", "", "A", 100.0, false, 2, 200.0);
    var s := HandleAddToCart(Initial, item);
    assert s.cart == [item];
    Keyed.SumSingleton(PaymentDetail(Efectivo, 242.0), PaymentAmount);
    Keyed.SumSingleton(PaymentDetail(Efectivo, 199.0), PaymentAmount);
  }
}

=== FILE: screen.dfy ===
/**
 * The new-sale screen as a whole: the session together with the payment
 * tracker whose emitted list the session keeps as its payments.
 */
module SaleScreen {
  import opened Wrappers
  import opened Types
  import Keyed
  import Payments
  import NewSale

  datatype Screen = Screen(session: NewSale.Session, tracker: Payments.Tracker)

  const Initial: Screen := Screen(NewSale.Initial, Payments.Initial)

  /** The session's payments are the list the tracker emits. */
  ghost predicate InSync(sc: Screen) {
    sc.session.payments == Payments.Emitted(sc.tracker)
  }

  /** A method button was pressed: the tracker toggles against the current total and emits its list. */
  function TogglePayment(sc: Screen, m: PaymentMethod): (r: Screen)
    ensures InSync(r)
    ensures r.tracker == Payments.Toggle(sc.tracker, m, NewSale.Total(sc.session))
    ensures r.session == sc.session.(payments := r.session.payments)
  {
    var t := Payments.Toggle(sc.tracker, m, NewSale.Total(sc.session));
    Screen(sc.session.(payments := Payments.Emitted(t)), t)
  }

  /** An amount was typed for a method: the tracker records it and emits its list. */
  function ChangeAmount(sc: Screen, m: PaymentMethod, amount: real): (r: Screen)
    ensures InSync(r)
    ensures r.tracker == Payments.AmountChange(sc.tracker, m, amount)
    ensures r.session == sc.session.(payments := r.session.payments)
  {
    var t := Payments.AmountChange(sc.tracker, m, amount);
    Screen(sc.session.(payments := Payments.Emitted(t)), t)
  }

  /**
   * Reset as the screen performs it: the session is reset and the reset
   * counter handed to the tracker changes, but the tracker does not read that
   * counter, so it keeps its selection and amounts.
   */
  function ResetAsWritten(sc: Screen): (r: Screen)
    ensures r.tracker == sc.tracker && r.session == NewSale.Reset(sc.session)
  {
    Screen(NewSale.Reset(sc.session), sc.tracker)
  }

  /** Reset as intended: the tracker starts over together with the session. */
  function Reset(sc: Screen): (r: Screen)
    ensures InSync(r)
    ensures Payments.Valid(r.tracker)
    ensures r.session == NewSale.Reset(sc.session)
  {
    Payments.InitialIsValid();
    Screen(NewSale.Reset(sc.session), Payments.Initial)
  }

  /**
   * After a reset as written, a screen that had any payment method selected
   * shows that selection while the session holds no payment.
   */
  lemma ResetAsWrittenLosesSync(sc: Screen)
    requires |sc.tracker.selected| > 0
    ensures !InSync(ResetAsWritten(sc))
    ensures Reset(sc).tracker.selected == []
  {
    assert |Payments.Emitted(sc.tracker)| > 0;
  }

  /** Switching on the first payment method always leaves a selection behind. */
  lemma ToggleOnSelects(sc: Screen, m: PaymentMethod)
    requires m !in sc.tracker.selected
    ensures |TogglePayment(sc, m).tracker.selected| > 0
  {
  }

  /**
   * Saving from the screen.  On a registered sale both the session and the
   * tracker start over.
   */
  function SaveSale(sc: Screen, userId: Option<string>, response: Option<int>): (r: Screen)
    ensures NewSale.ValidateSale(sc.session, userId).Success? && response.Some? && response.value != 0 ==> r == Reset(sc)
    ensures !(NewSale.ValidateSale(sc.session, userId).Success? && response.Some? && response.value != 0) ==> r == sc
  {
    var out := NewSale.HandleSaveSale(sc.session, userId, response);
    if out.session == sc.session then sc else Reset(sc)
  }

  /**
   * Saving from the screen as written: on a registered sale the session starts
   * over through the reset as written, so the tracker is left as it was.
   */
  function SaveSaleAsWritten(sc: Screen, userId: Option<string>, response: Option<int>): (r: Screen)
    ensures NewSale.ValidateSale(sc.session, userId).Success? && response.Some? && response.value != 0 ==>
      r.tracker == sc.tracker && r.session == NewSale.Reset(sc.session)
    ensures !(NewSale.ValidateSale(sc.session, userId).Success? && response.Some? && response.value != 0) ==> r == sc
  {
    var out := NewSale.HandleSaveSale(sc.session, userId, response);
    if out.session == sc.session then sc else ResetAsWritten(sc)
  }

  /**
   * A registered sale paid with any selected method leaves the screen out of
   * sync: the tracker still shows the old selection, the session has no payment.
   */
  lemma SaveSaleAsWrittenLosesSync(sc: Screen, userId: Option<string>, response: Option<int>)
    requires NewSale.ValidateSale(sc.session, userId).Success? && response.Some? && response.value != 0
    requires |sc.tracker.selected| > 0
    ensures !InSync(SaveSaleAsWritten(sc, userId, response))
    ensures InSync(SaveSale(sc, userId, response))
  {
    ResetAsWrittenLosesSync(sc);
  }

  /**
   * Loading a draft: the session takes the draft's lines, customer and
   * payments, and the tracker is not told.
   */
  function LoadDraft(sc: Screen, d: SaleDraft): (r: Screen)
    ensures r.tracker == sc.tracker
    ensures r.session.payments == d.payments && r.session.cart == d.items && r.session.customer == d.customer
    ensures r.session == NewSale.HandleLoadDraft(sc.session, d)
  {
    Screen(NewSale.HandleLoadDraft(sc.session, d), sc.tracker)
  }

  /** After loading a draft, the screen is in sync exactly when the draft's payments are what the tracker already emits. */
  lemma LoadDraftLosesSync(sc: Screen, d: SaleDraft)
    ensures InSync(LoadDraft(sc, d)) <==> d.payments == Payments.Emitted(sc.tracker)
    ensures d.payments != Payments.Emitted(sc.tracker) ==> !InSync(Screen(NewSale.HandleLoadDraft(sc.session, d), sc.tracker))
  {
  }

  /** The corrected toggle, amount, reset and save events keep the session's payments equal to what the tracker emits. */
  lemma EventsKeepSync(sc: Screen, m: PaymentMethod, amount: real, userId: Option<string>, response: Option<int>)
    requires InSync(sc)
    ensures InSync(TogglePayment(sc, m)) && InSync(ChangeAmount(sc, m, amount))
    ensures InSync(Reset(sc)) && InSync(SaveSale(sc, userId, response))
  {
  }

  /**
   * With the screen in sync, the payment guard compares the tracker's total
   * paid with the sale total.
   */
  lemma GuardUsesTrackerTotal(sc: Screen, userId: Option<string>)
    requires InSync(sc) && Payments.Valid(sc.tracker)
    ensures NewSale.ValidateSale(sc.session, userId).Success?
      <==> |sc.session.cart| > 0 && Payments.TotalPaid(sc.tracker) >= NewSale.Total(sc.session)
  {
    Payments.TotalPaidIsEmittedSum(sc.tracker);
  }

  /**
   * The consequence of the lost sync: cash covering a sale, a registered sale,
   * and a new cart of the same total is refused as underpaid although the
   * tracker still shows the cash amount.
   */
  lemma ResetAsWrittenRefusesNextSale(item: CartItem, userId: Option<string>)
    requires item.subtotal > 0.0
    ensures var sc0 := Screen(NewSale.HandleAddToCart(NewSale.Initial, item), Payments.Initial);
      var sc1 := TogglePayment(sc0, Efectivo);
      var sc2 := ResetAsWritten(sc1);
      var sc3 := sc2.(session := NewSale.HandleAddToCart(sc2.session, item));
      && NewSale.ValidateSale(sc1.session, userId).Success?
      && Payments.TotalPaid(sc3.tracker) >= NewSale.Total(sc3.session)
      && NewSale.ValidateSale(sc3.session, userId) == Failure(NewSale.Underpaid)
  {
    var sc0 := Screen(NewSale.HandleAddToCart(NewSale.Initial, item), Payments.Initial);
    assert sc0.session.cart == [item];
    var total := NewSale.Total(sc0.session);
    assert total == item.subtotal;
    var sc1 := TogglePayment(sc0, Efectivo);
    assert sc1.tracker.selected == [Efectivo];
    assert sc1.session.payments == [PaymentDetail(Efectivo, total)];
    Keyed.SumSingleton(PaymentDetail(Efectivo, total), PaymentAmount);
    var sc2 := ResetAsWritten(sc1);
    var sc3 := sc2.(session := NewSale.HandleAddToCart(sc2.session, item));
    assert sc3.session.cart == [item];
    assert sc3.session.payments == [];
  }
}

=== FILE: text.dfy ===
/**
 * The string operations the screens rely on: `trim`, blank tests,
 * `replace(/\D/g, '')`, `toLowerCase`, `join`, and the conversions between
 * numbers and their decimal text (`String(n)` and `Number(s)`).
 */
module Text {
  import opened Wrappers

  /** The characters `String.prototype.trim` strips (the ASCII and Latin-1 ones, plus the byte-order mark). */
  predicate IsWhitespace(c: char) {
    c == ' ' || c == '\t' || c == '\n' || c == '\r' || c == '\U{000B}' || c == '\U{000C}'
    || c == '\U{00A0}' || c == '\U{FEFF}'
  }

  /** The string is empty or made only of whitespace, so that `!s.trim()` holds. */
  predicate IsBlank(s: string) {
    forall i :: 0 <= i < |s| ==> IsWhitespace(s[i])
  }

  /** `s` without its leading whitespace. */
  function TrimStart(s: string): (r: string)
    ensures |r| <= |s| && r == s[|s| - |r|..]
    ensures forall i :: 0 <= i < |s| - |r| ==> IsWhitespace(s[i])
    ensures r == [] || !IsWhitespace(r[0])
  {
    if |s| > 0 && IsWhitespace(s[0]) then
      var r := TrimStart(s[1..]);
      assert forall i :: 1 <= i < |s| - |r| ==> s[i] == s[1..][i - 1];
      r
    else s
  }

  /** `s` without its trailing whitespace. */
  function TrimEnd(s: string): (r: string)
    ensures |r| <= |s| && r == s[..|r|]
    ensures forall i :: |r| <= i < |s| ==> IsWhitespace(s[i])
    ensures r == [] || !IsWhitespace(r[|r| - 1])
  {
    if |s| > 0 && IsWhitespace(s[|s| - 1]) then
      var r := TrimEnd(s[..|s| - 1]);
      assert forall i :: |r| <= i < |s| - 1 ==> s[i] == s[..|s| - 1][i];
      r
    else s
  }

  /** `s.trim()`: the middle of `s` between leading and trailing whitespace. */
  function Trim(s: string): (r: string)
    ensures r == [] <==> IsBlank(s)
    ensures r != [] ==> !IsWhitespace(r[0]) && !IsWhitespace(r[|r| - 1])
    ensures |r| <= |s|
    ensures exists k :: TrimmedAt(s, r, k)
  {
    var t := TrimStart(s);
    var r := TrimEnd(t);
    CutBothEnds(s, t, r, |s| - |t|);
    r
  }

  /** `r` is the slice of `s` starting at `k`, and everything of `s` before and after it is whitespace. */
  predicate TrimmedAt(s: string, r: string, k: int) {
    0 <= k <= |s| - |r| && r == s[k..k + |r|]
    && (forall i :: 0 <= i < k ==> IsWhitespace(s[i]))
    && (forall i :: k + |r| <= i < |s| ==> IsWhitespace(s[i]))
  }

  /**
   * Cutting whitespace from the front of `s` (giving `t`) and then from the
   * back of `t` (giving `r`) leaves the middle of `s`, which is empty only
   * when `s` is blank.
   */
  lemma CutBothEnds(s: string, t: string, r: string, k: int)
    requires 0 <= k <= |s| && t == s[k..] && |r| <= |t| && r == t[..|r|]
    requires forall i :: 0 <= i < k ==> IsWhitespace(s[i])
    requires forall j :: |r| <= j < |t| ==> IsWhitespace(t[j])
    requires t == [] || !IsWhitespace(t[0])
    requires r == [] || !IsWhitespace(r[|r| - 1])
    ensures TrimmedAt(s, r, k)
    ensures r == [] <==> IsBlank(s)
    ensures r != [] ==> !IsWhitespace(r[0]) && !IsWhitespace(r[|r| - 1])
  {
    forall i | k + |r| <= i < |s| ensures IsWhitespace(s[i]) {
      assert s[i] == t[i - k];
    }
    if r != [] {
      assert r[0] == t[0];
      assert s[k] == t[0];
    }
  }

  /** Trimming twice is trimming once. */
  lemma {:induction false} TrimIdempotent(s: string)
    ensures Trim(Trim(s)) == Trim(s)
  {
    var r := Trim(s);
    if r != [] {
      assert TrimStart(r) == r;
      assert TrimEnd(r) == r;
    }
  }

  predicate IsDigit(c: char) {
    '0' <= c <= '9'
  }

  predicate AllDigits(s: string) {
    forall i :: 0 <= i < |s| ==> IsDigit(s[i])
  }

  /** `s.replace(/\D/g, '')`: the decimal digits of `s`, in order. */
  function DigitsOnly(s: string): (r: string)
    ensures AllDigits(r)
    ensures |r| <= |s|
  {
    if |s| == 0 then ""
    else (if IsDigit(s[0]) then [s[0]] else "") + DigitsOnly(s[1..])
  }

  /** Keeping digits distributes over concatenation, which fixes the order of the kept characters. */
  lemma {:induction false} DigitsOnlyAppend(a: string, b: string)
    ensures DigitsOnly(a + b) == DigitsOnly(a) + DigitsOnly(b)
  {
    if |a| == 0 {
      assert a + b == b;
    } else {
      var head := if IsDigit(a[0]) then [a[0]] else "";
      assert (a + b)[0] == a[0];
      assert (a + b)[1..] == a[1..] + b;
      assert DigitsOnly(a + b) == head + DigitsOnly(a[1..] + b);
      DigitsOnlyAppend(a[1..], b);
      assert DigitsOnly(a) == head + DigitsOnly(a[1..]);
    }
  }

  /** A single character is kept exactly when it is a digit. */
  lemma DigitsOnlyChar(c: char)
    ensures DigitsOnly([c]) == if IsDigit(c) then [c] else ""
  {
  }

  /** A string made of digits is left as it is. */
  lemma {:induction false} DigitsOnlyOfDigits(s: string)
    requires AllDigits(s)
    ensures DigitsOnly(s) == s
  {
    if |s| > 0 {
      DigitsOnlyOfDigits(s[1..]);
      assert s == [s[0]] + s[1..];
    }
  }

  /** Keeping digits is idempotent. */
  lemma DigitsOnlyIdempotent(s: string)
    ensures DigitsOnly(DigitsOnly(s)) == DigitsOnly(s)
  {
    DigitsOnlyOfDigits(DigitsOnly(s));
  }

  /** `toLowerCase` on one character (ASCII letters only). */
  function LowerChar(c: char): (r: char)
    ensures IsWhitespace(r) <==> IsWhitespace(c)
    ensures !('A' <= r <= 'Z')
  {
    if 'A' <= c <= 'Z' then (c as int + 32) as char else c
  }

  /** `s.toLowerCase()`, ASCII letters only. */
  function ToLower(s: string): (r: string)
    ensures |r| == |s|
    ensures forall i :: 0 <= i < |s| ==> r[i] == LowerChar(s[i])
  {
    if |s| == 0 then "" else [LowerChar(s[0])] + ToLower(s[1..])
  }

  /** Lower-casing leaves whitespace alone, so it neither creates nor removes a blank string. */
  lemma ToLowerKeepsBlank(s: string)
    ensures IsBlank(ToLower(s)) <==> IsBlank(s)
  {
    var r := ToLower(s);
    if IsBlank(r) {
      forall i | 0 <= i < |s| ensures IsWhitespace(s[i]) {
        assert IsWhitespace(r[i]);
      }
    }
  }

  /** A string with no whitespace at either end is its own trim. */
  lemma TrimOfTrimmed(s: string)
    requires s != [] && !IsWhitespace(s[0]) && !IsWhitespace(s[|s| - 1])
    ensures Trim(s) == s
  {
    assert TrimStart(s) == s;
    assert TrimEnd(s) == s;
  }

  /** Lower-casing twice is lower-casing once. */
  lemma ToLowerIdempotent(s: string)
    ensures ToLower(ToLower(s)) == ToLower(s)
  {
  }

  /** `parts.join(sep)`. */
  function Join(parts: seq<string>, sep: string): (r: string)
    ensures |parts| == 0 ==> r == ""
    ensures |parts| == 1 ==> r == parts[0]
  {
    if |parts| == 0 then ""
    else if |parts| == 1 then parts[0]
    else parts[0] + sep + Join(parts[1..], sep)
  }

  /** Joining two non-empty lists puts one separator between their joins. */
  lemma {:induction false} JoinAppend(a: seq<string>, b: seq<string>, sep: string)
    requires |a| > 0 && |b| > 0
    ensures Join(a + b, sep) == Join(a, sep) + sep + Join(b, sep)
  {
    if |a| == 1 {
      assert (a + b)[1..] == b;
    } else {
      assert (a + b)[1..] == a[1..] + b;
      JoinAppend(a[1..], b, sep);
    }
  }

  /** The join is as long as the parts plus one separator between each neighbouring pair. */
  lemma {:induction false} JoinLength(parts: seq<string>, sep: string)
    requires |parts| > 0
    ensures |Join(parts, sep)| == TotalLength(parts) + (|parts| - 1) * |sep|
  {
    if |parts| > 1 {
      JoinLength(parts[1..], sep);
    }
  }

  function TotalLength(parts: seq<string>): nat {
    if |parts| == 0 then 0 else |parts[0]| + TotalLength(parts[1..])
  }

  function DigitChar(d: nat): char
    requires d < 10
  {
    ('0' as int + d) as char
  }

  function DigitValue(c: char): nat
    requires IsDigit(c)
  {
    c as int - '0' as int
  }

  /** `String(n)` for a non-negative integer: its decimal digits, most significant first. */
  function NatToString(n: nat): (r: string)
    ensures |r| > 0 && AllDigits(r)
    ensures r[0] == '0' ==> n == 0
  {
    if n < 10 then [DigitChar(n)] else NatToString(n / 10) + [DigitChar(n % 10)]
  }

  /** `String(i)` for any integer, with a leading minus sign when negative. */
  function IntToString(i: int): (r: string)
    ensures |r| > 0
    ensures i < 0 <==> r[0] == '-'
  {
    if i < 0 then "-" + NatToString(-i) else NatToString(i)
  }

  /** The value of a string of decimal digits; the empty string is 0. */
  function DecimalValue(s: string): nat
    requires AllDigits(s)
  {
    if |s| == 0 then 0 else DecimalValue(s[..|s| - 1]) * 10 + DigitValue(s[|s| - 1])
  }

  /** Plain decimal text with a leading minus sign, as `Number` reads a negative integer. */
  predicate IsNegativeDecimal(s: string) {
    |s| > 1 && s[0] == '-' && AllDigits(s[1..])
  }

  /**
   * `Number(s)` restricted to plain integer text: a string of digits (the
   * empty string included, which `Number` reads as 0) gives its value, a
   * minus sign followed by digits gives the negated value, and any other
   * string gives `None`, standing for `NaN`.
   */
  function NumberOf(s: string): (r: Option<int>)
    ensures r.Some? <==> AllDigits(s) || IsNegativeDecimal(s)
    ensures AllDigits(s) ==> r.Some? && r.value >= 0
    ensures IsNegativeDecimal(s) ==> r.Some? && r.value <= 0
    ensures s == "" ==> r == Some(0)
  {
    if AllDigits(s) then Some(DecimalValue(s))
    else if IsNegativeDecimal(s) then var v: int := DecimalValue(s[1..]); Some(-v)
    else None
  }

  /** Reading back the decimal text of a natural number gives the number. */
  lemma {:induction false} NumberOfNatToString(n: nat)
    ensures NumberOf(NatToString(n)) == Some(n)
  {
    if n >= 10 {
      NumberOfNatToString(n / 10);
      var s := NatToString(n);
      assert s[..|s| - 1] == NatToString(n / 10);
      assert DigitValue(s[|s| - 1]) == n % 10;
      assert DecimalValue(s) == DecimalValue(NatToString(n / 10)) * 10 + n % 10;
    }
  }

  /** Reading back the decimal text of any integer gives the integer. */
  lemma NumberOfIntToString(i: int)
    ensures NumberOf(IntToString(i)) == Some(i)
  {
    if i < 0 {
      var t := NatToString(-i);
      var s := IntToString(i);
      assert s[1..] == t;
      assert !AllDigits(s) by { assert !IsDigit(s[0]); }
      NumberOfNatToString(-i);
    } else {
      NumberOfNatToString(i);
    }
  }
}

=== FILE: types.dfy ===
/**
 * The records of the sale screens: products found by search, cart lines,
 * customers, payments, drafts and the sale-registration payload, with the
 * wire names of the closed enumerations and the search-result mapping.
 */
module Types {
  import opened Wrappers
  import Text

  datatype PaymentMethod = Efectivo | Tarjeta | Transferencia

  /** Every payment method, in the order the screen lists them. */
  const AllPaymentMethods: seq<PaymentMethod> := [Efectivo, Tarjeta, Transferencia]

  datatype SaleOrigin = Puerta | Web | Redes | MercadoLibre

  datatype ConsumerType = Minorista | Mayorista | ConsumidorFinal | Monotributo

  datatype CustomerType = Natural | Juridico

  function PaymentMethodName(m: PaymentMethod): string {
    match m
    case Efectivo => "efectivo"
    case Tarjeta => "tarjeta"
    case Transferencia => "transferencia"
  }

  function ParsePaymentMethod(s: string): Option<PaymentMethod> {
    if s == "efectivo" then Some(Efectivo)
    else if s == "tarjeta" then Some(Tarjeta)
    else if s == "transferencia" then Some(Transferencia)
    else None
  }

  function SaleOriginName(o: SaleOrigin): string {
    match o
    case Puerta => "Puerta"
    case Web => "Web"
    case Redes => "Redes"
    case MercadoLibre => "Mercado_libre"
  }

  function ParseSaleOrigin(s: string): Option<SaleOrigin> {
    if s == "Puerta" then Some(Puerta)
    else if s == "Web" then Some(Web)
    else if s == "Redes" then Some(Redes)
    else if s == "Mercado_libre" then Some(MercadoLibre)
    else None
  }

  function ConsumerTypeName(c: ConsumerType): string {
    match c
    case Minorista => "minorista"
    case Mayorista => "mayorista"
    case ConsumidorFinal => "consumidor_final"
    case Monotributo => "monotributo"
  }

  function ParseConsumerType(s: string): Option<ConsumerType> {
    if s == "minorista" then Some(Minorista)
    else if s == "mayorista" then Some(Mayorista)
    else if s == "consumidor_final" then Some(ConsumidorFinal)
    else if s == "monotributo" then Some(Monotributo)
    else None
  }

  /** The three payment methods are listed once each, and no other value exists. */
  lemma PaymentMethodsExhaustive()
    ensures |AllPaymentMethods| == 3
    ensures forall i, j :: 0 <= i < j < 3 ==> AllPaymentMethods[i] != AllPaymentMethods[j]
    ensures forall m: PaymentMethod :: m in AllPaymentMethods
  {
    forall m: PaymentMethod ensures m in AllPaymentMethods {
      match m
      case Efectivo => assert AllPaymentMethods[0] == m;
      case Tarjeta => assert AllPaymentMethods[1] == m;
      case Transferencia => assert AllPaymentMethods[2] == m;
    }
  }

  /** Each wire name of a closed enumeration reads back as the value it names, and only the wire names are read. */
  lemma EnumNamesRoundTrip(m: PaymentMethod, o: SaleOrigin, c: ConsumerType, s: string)
    ensures ParsePaymentMethod(PaymentMethodName(m)) == Some(m)
    ensures ParseSaleOrigin(SaleOriginName(o)) == Some(o)
    ensures ParseConsumerType(ConsumerTypeName(c)) == Some(c)
    ensures ParsePaymentMethod(s).Some? ==> PaymentMethodName(ParsePaymentMethod(s).value) == s
    ensures ParseSaleOrigin(s).Some? ==> SaleOriginName(ParseSaleOrigin(s).value) == s
    ensures ParseConsumerType(s).Some? ==> ConsumerTypeName(ParseConsumerType(s).value) == s
  {
  }

  /** The four origins and the four consumer types have pairwise distinct wire names. */
  lemma EnumNamesDistinct(o1: SaleOrigin, o2: SaleOrigin, c1: ConsumerType, c2: ConsumerType)
    ensures SaleOriginName(o1) == SaleOriginName(o2) ==> o1 == o2
    ensures ConsumerTypeName(c1) == ConsumerTypeName(c2) ==> c1 == c2
  {
    assert ParseSaleOrigin(SaleOriginName(o1)) == Some(o1);
    assert ParseSaleOrigin(SaleOriginName(o2)) == Some(o2);
    assert ParseConsumerType(ConsumerTypeName(c1)) == Some(c1);
    assert ParseConsumerType(ConsumerTypeName(c2)) == Some(c2);
  }

  datatype Product = Product(
    id: string,
    sku: string,
    codigoBarras: string,
    name: string,
    price: real,
    editable: bool)

  /** A product on a cart line: the product's fields plus quantity and line subtotal. */
  datatype CartItem = CartItem(
    id: string,
    sku: string,
    codigoBarras: string,
    name: string,
    price: real,
    editable: bool,
    quantity: int,
    subtotal: real)

  function ItemId(item: CartItem): string {
    item.id
  }

  /** The line's subtotal is its unit price times its quantity. */
  predicate Consistent(item: CartItem) {
    item.subtotal == item.price * item.quantity as real
  }

  datatype Customer = Customer(
    id: string,
    kind: CustomerType,
    name: string,
    lastName: Option<string>,
    document: string,
    businessName: Option<string>,
    phone: Option<string>,
    email: Option<string>,
    address: Option<string>)

  datatype PaymentDetail = PaymentDetail(paymentMethod: PaymentMethod, amount: real)

  function PaymentAmount(p: PaymentDetail): real {
    p.amount
  }

  /** A saved, not yet submitted sale. */
  datatype SaleDraft = SaleDraft(
    id: string,
    items: seq<CartItem>,
    customer: Option<Customer>,
    payments: seq<PaymentDetail>,
    origin: SaleOrigin,
    consumer: ConsumerType,
    observations: string,
    taxType: string)

  function DraftId(d: SaleDraft): string {
    d.id
  }

  /** The identifier of a search result, which the backend sends as a number or as text. */
  datatype SearchId = NumericId(n: int) | TextId(text: string)

  /** A product as the search procedure returns it. */
  datatype ProductoBusqueda = ProductoBusqueda(
    id: SearchId,
    sku: string,
    codigoBarras: string,
    nombre: string,
    precio: real,
    editable: bool)

  /** `String(id)`. */
  function SearchIdText(id: SearchId): string {
    match id
    case NumericId(n) => Text.IntToString(n)
    case TextId(t) => t
  }

  /** Converts a search result into the product the cart works with. */
  function MapBusquedaAProduct(p: ProductoBusqueda): (r: Product)
    ensures r.sku == p.sku && r.codigoBarras == p.codigoBarras && r.editable == p.editable
    ensures r.name == p.nombre && r.price == p.precio
    ensures p.id.TextId? ==> r.id == p.id.text
    ensures p.id.NumericId? ==> Text.NumberOf(r.id) == Some(p.id.n)
  {
    var r := Product(SearchIdText(p.id), p.sku, p.codigoBarras, p.nombre, p.precio, p.editable);
    if p.id.NumericId? then Text.NumberOfIntToString(p.id.n); r else r
  }

  /** One line of the sale-registration payload. */
  datatype DetalleVenta = DetalleVenta(sku: string, cantidad: int, precioUnitario: real)

  /** One payment of the sale-registration payload. */
  datatype PagoVenta = PagoVenta(metodo: string, monto: real)

  /**
   * The arguments of the sale-registration procedure.  `clienteId` is `None`
   * when the selected customer's id does not read as a number (`NaN`).
   */
  datatype RegistrarVentaParams = RegistrarVentaParams(
    clienteId: Option<int>,
    origen: string,
    tipoConsumidor: string,
    tipoIva: string,
    observaciones: string,
    detalles: seq<DetalleVenta>,
    pagos: seq<PagoVenta>,
    userId: string)
}

=== FILE: variants.dfy ===
/**
 * The product-variants dialog: a map from variant key (colour, material, …)
 * to the list of values entered for it, and the list of variant kinds still
 * offered for selection.
 */
module Variants {
  import Text

  /** One entry of the fixed variant catalogue. */
  datatype VariantOption = VariantOption(key: string, labelText: string)

  /** A value as entered: the four text inputs, kept as a record. */
  datatype VariantValue = VariantValue(nombre: string, precio: string, codigoBarras: string, link: string)

  datatype TempFields = TempFields(nombre: string, precio: string, codigoBarras: string, link: string)

  const EmptyTemp: TempFields := TempFields("", "", "", "")

  datatype VariantsState = VariantsState(
    selected: map<string, seq<VariantValue>>,
    current: string,
    temp: TempFields)

  /** The dialog as it opens. */
  const Initial: VariantsState := VariantsState(map[], "", EmptyTemp)

  /** Selecting a variant kind: ignored when already selected, otherwise added with no values and made current. */
  function AddVariant(st: VariantsState, key: string): (r: VariantsState)
    ensures key in st.selected ==> r == st
    ensures key !in st.selected ==> r.selected == st.selected[key := []] && r.current == key && r.temp == st.temp
    ensures key in r.selected && r.selected.Keys == st.selected.Keys + {key}
  {
    if key in st.selected then st
    else st.(selected := st.selected[key := []], current := key)
  }

  /** Dropping a variant kind removes only that key. */
  function RemoveVariant(st: VariantsState, key: string): (r: VariantsState)
    ensures key !in r.selected
    ensures r.selected.Keys == st.selected.Keys - {key}
    ensures forall k :: k in r.selected ==> r.selected[k] == st.selected[k]
    ensures r.current == st.current && r.temp == st.temp
  {
    st.(selected := st.selected - {key})
  }

  /** Removing a kind that was just added restores the selection. */
  lemma RemoveUndoesAdd(st: VariantsState, key: string)
    requires key !in st.selected
    ensures RemoveVariant(AddVariant(st, key), key).selected == st.selected
  {
    assert st.selected[key := []] - {key} == st.selected;
  }

  /**
   * Adding a value under `key` from the text inputs: ignored when the name is
   * blank; otherwise the value is appended to that key's list (created when
   * missing) and the inputs are cleared. The guard `!nombre.trim()` is
   * `Text.IsBlank`, by the contract of `Text.Trim`.
   */
  function AddValue(st: VariantsState, key: string): (r: VariantsState)
    ensures Text.IsBlank(st.temp.nombre) ==> r == st
    ensures !Text.IsBlank(st.temp.nombre) ==>
      && key in r.selected
      && r.selected[key] == (if key in st.selected then st.selected[key] else [])
                            + [VariantValue(st.temp.nombre, st.temp.precio, st.temp.codigoBarras, st.temp.link)]
      && r.temp == EmptyTemp
      && r.current == st.current
    ensures !Text.IsBlank(st.temp.nombre) ==> r.selected.Keys == st.selected.Keys + {key}
    ensures forall k :: k in st.selected && k != key ==> k in r.selected && r.selected[k] == st.selected[k]
  {
    if Text.IsBlank(st.temp.nombre) then st
    else
      var t := st.temp;
      var existing := if key in st.selected then st.selected[key] else [];
      st.(selected := st.selected[key := existing + [VariantValue(t.nombre, t.precio, t.codigoBarras, t.link)]],
          temp := EmptyTemp)
  }

  /** `list.filter((_, i) => i !== index)`: drops the element at `index`, if there is one. */
  function DropIndex<T>(s: seq<T>, index: int): (r: seq<T>)
    ensures 0 <= index < |s| ==> |r| == |s| - 1
    ensures 0 <= index < |s| ==> forall i :: 0 <= i < |r| ==> r[i] == if i < index then s[i] else s[i + 1]
    ensures !(0 <= index < |s|) ==> r == s
  {
    if 0 <= index < |s| then s[..index] + s[index + 1..] else s
  }

  /** Removing the value at `index` under `key`; an index past the end removes nothing. */
  function RemoveValue(st: VariantsState, key: string, index: int): (r: VariantsState)
    requires key in st.selected
    ensures key in r.selected && r.selected[key] == DropIndex(st.selected[key], index)
    ensures r.selected.Keys == st.selected.Keys
    ensures forall k :: k in st.selected && k != key ==> r.selected[k] == st.selected[k]
    ensures r.current == st.current && r.temp == st.temp
  {
    st.(selected := st.selected[key := DropIndex(st.selected[key], index)])
  }

  /** Removing the value just added gives back the list it was added to. */
  lemma RemoveUndoesAddValue(st: VariantsState, key: string)
    requires key in st.selected && !Text.IsBlank(st.temp.nombre)
    ensures var added := AddValue(st, key);
      RemoveValue(added, key, |st.selected[key]|).selected == st.selected
  {
    var added := AddValue(st, key);
    var l := st.selected[key];
    var v := VariantValue(st.temp.nombre, st.temp.precio, st.temp.codigoBarras, st.temp.link);
    assert added.selected[key] == l + [v];
    assert DropIndex(l + [v], |l|) == l;
    var removed := RemoveValue(added, key, |l|);
    assert removed.selected.Keys == st.selected.Keys;
    assert removed.selected[key] == l;
    assert forall k :: k in st.selected ==> removed.selected[k] == st.selected[k];
  }

  /** The catalogue entries whose key is not selected yet, in catalogue order. */
  function AvailableOptions(options: seq<VariantOption>, selected: map<string, seq<VariantValue>>): (r: seq<VariantOption>)
    ensures |r| <= |options|
    ensures forall o :: o in r ==> o in options && o.key !in selected
    ensures forall o :: o in options && o.key !in selected ==> o in r
  {
    if |options| == 0 then []
    else
      var rest := AvailableOptions(options[1..], selected);
      if options[0].key in selected then rest else [options[0]] + rest
  }

  /** Filtering distributes over concatenation, so catalogue order is kept. */
  lemma {:induction false} AvailableOptionsAppend(a: seq<VariantOption>, b: seq<VariantOption>,
                                                  selected: map<string, seq<VariantValue>>)
    ensures AvailableOptions(a + b, selected) == AvailableOptions(a, selected) + AvailableOptions(b, selected)
  {
    if |a| == 0 {
      assert a + b == b;
    } else {
      assert (a + b)[1..] == a[1..] + b;
      AvailableOptionsAppend(a[1..], b, selected);
    }
  }

  /** Selecting a kind takes it off the offered list; dropping it offers it again. */
  lemma SelectionUpdatesOffer(options: seq<VariantOption>, st: VariantsState, o: VariantOption)
    requires o in options
    ensures o !in AvailableOptions(options, AddVariant(st, o.key).selected)
    ensures o in AvailableOptions(options, RemoveVariant(st, o.key).selected)
  {
  }
}

=== FILE: wrappers.dfy ===
/** Optional values and results, as the rest of the model uses them. */
module Wrappers {

  /** A value that may be absent (`undefined` / `null` in the original program). */
  datatype Option<+T> = None | Some(value: T) {

    /** The wrapped value, or `default` when absent. */
    function GetOr(default: T): T {
      match this
      case Some(v) => v
      case None => default
    }
  }

  /** The outcome of an operation that is either accepted or rejected with a reason. */
  datatype Result<+R, +E> = Success(value: R) | Failure(error: E)
}
